=== FILE: README.md ===
# Playback session of ExoVideoView, in Dafny

This project models the playback-session state machine of the
MotionPictureGenerator video view. That view is `ExoVideoView`, a
`TextureView` that owns an ExoPlayer 1.x engine and a renderer builder. It
also acts as the `MediaController.MediaPlayerControl` for the player
controls.

The view's fields are modelled as one immutable `Session` record:

- the engine (`Option<Player>`, where `None` is a null `mMediaPlayer`);
- the MediaController adapter;
- the renderer builder;
- the renderer-building state and the pending-preparation flag;
- the last reported (play-when-ready, state) pair;
- the surface and the background flag;
- the registered listeners.

Every public method and every callback is a pure function from one
session to the next. Everything observable is appended to the session's
`log`: deliveries to listeners, and commands to the engine, the builder
and the adapter.

Modules:

- `Wrappers`: `Option` and `Result`.
- `Tracks`: track categories, the selection values `TRACK_DISABLED` (-1) and
  `TRACK_DEFAULT` (0) of ExoPlayer 1.x, and the normalisation of the
  builder's renderer array.
- `Events`: what the view emits; fan-out to the listener list; listener
  registration.
- `Session`: the session record and one function per operation of the view.
- `SessionProperties`: properties that relate operations to each other or
  to an independent description of their effect.
- `AudioRoute`: the audio-capabilities handler. The handler as written is
  modelled as a small statement interpreter. Next to it is the corrected
  handler.
- `SurfaceRelease`: the surface-destroyed callback, corrected so that the
  renderer is detached before the surface is released.
- `Lifecycle`: one command type for every entry point that changes the
  view, every engine and builder callback, and engine progress. The two
  queries with logic of their own, `getPlaybackState` and
  `getSelectedTrack`, are commands too; they leave the session unchanged
  and fail where they would dereference a null engine. The direct reads
  listed under "Left out" would fail the same way without an engine.
  The MediaController queries never fail and are plain functions. A
  command fails exactly where the Java code would dereference a null
  engine. The audio-route command runs the handler as written, so it
  always fails. The corrected route handler and the corrected
  surface-destroyed callback are two further commands. The module
  also proves that the object-graph invariant `Wired` holds for every run:
  the adapter exists exactly when the engine does, and every engine has a
  builder.

Inputs the view cannot control are parameters of the operations:

- the engine's playback state;
- the renderer array and bandwidth meter a build delivers;
- errors;
- cues and metadata;
- surfaces;
- the adapter's readings: position, duration, buffering and the other
  MediaController answers, which the engine changes as it plays
  (`Session.OnEngineProgress`).

The code departs in several places from how a view of this kind is usually
designed. The model follows the code:

- **No generation token.** Builds carry no generation token. A build
  callback is applied whenever an engine exists. The code has no
  stale-callback guard, and the model claims none.
- **`release()` is not terminal.** The engine reference is kept. A later
  `preparePlayer` reuses the released engine and rebuilds only if a
  preparation was already pending
  (`SessionProperties.PrepareAfterReleaseReusesEngine`). Releasing twice
  issues the cancel and release commands again. It tells no listener
  anything.
- **No separate Error state.** A failure sets the building state to IDLE
  and marks a preparation as pending.
- **A route change neither saves nor restores the playback position.** As
  written, the handler cannot complete at all (see Findings).
- **A route change discards every track selection.** Even the corrected
  handler builds a new engine, which starts from the defaults: every
  category at TRACK_DEFAULT except text, which is disabled. A saved
  `videoTrackToRestore` is overwritten with TRACK_DEFAULT
  (`AudioRoute.RouteChangeRebuildsInSameBackgroundState`).
- **`setContentUri` on a live engine keeps the old builder.** The new
  content takes effect only after `stopPlayback`
  (`SessionProperties.NewContentNeedsStoppedEngine`). MainActivity calls
  `stopPlayback` first for this reason.

## Model

| member | source | states |
|---|---|---|
| Tracks.Normalise | app/src/main/java/com/crust87/motionpicturegenerator/player/ExoVideoView.java:513-518 | every present renderer stays in its category slot and every absent slot holds the placeholder, so the set the engine receives is total |
| Tracks.NormaliseFullSetIsIdentity | app/src/main/java/com/crust87/motionpicturegenerator/player/ExoVideoView.java:513-518 | an array with no absent slot is handed over unchanged, which covers a normalised array normalised again |
| Events.FanOut | app/src/main/java/com/crust87/motionpicturegenerator/player/ExoVideoView.java:346-360 | one delivery per registered listener, in registration order, each carrying the same payload |
| Events.FanOutDeliversOncePerRegistration | app/src/main/java/com/crust87/motionpicturegenerator/player/ExoVideoView.java:348-359 | each listener receives the payload exactly as many times as it is registered |
| Events.FanOutOnlyDelivers | app/src/main/java/com/crust87/motionpicturegenerator/player/ExoVideoView.java:346-360 | a fan-out contains nothing but deliveries of its payload to registered listeners |
| Events.AddListener | app/src/main/java/com/crust87/motionpicturegenerator/player/ExoVideoView.java:472-474 | registration appends the listener at the end and keeps every earlier registration |
| Events.FirstIndex | app/src/main/java/com/crust87/motionpicturegenerator/player/ExoVideoView.java:476-478 | the position found holds the listener and no earlier position does |
| Events.RemoveListener | app/src/main/java/com/crust87/motionpicturegenerator/player/ExoVideoView.java:476-478 | removal drops one registration of the listener when it is registered and changes nothing otherwise; the multiset loses exactly one copy |
| Events.RemoveListenerDropsFirst | app/src/main/java/com/crust87/motionpicturegenerator/player/ExoVideoView.java:476-478 | removal cuts out exactly the first registration and keeps the other registrations in order |
| Events.RemoveUndoesAdd | app/src/main/java/com/crust87/motionpicturegenerator/player/ExoVideoView.java:472-478 | removing a listener just registered restores the previous registrations |
| Session.NotifyStateChanged | app/src/main/java/com/crust87/motionpicturegenerator/player/ExoVideoView.java:348-352 | every listener hears the (play-when-ready, state) pair and nothing else changes |
| Session.NotifyError | app/src/main/java/com/crust87/motionpicturegenerator/player/ExoVideoView.java:354-360 | every listener hears the error and a fresh preparation becomes pending |
| Session.GetPlaybackState | app/src/main/java/com/crust87/motionpicturegenerator/player/ExoVideoView.java:459-470 | PREPARING while building, PREPARING when built but the engine is still idle, otherwise the engine's own state |
| Session.MaybeReportPlayerState | app/src/main/java/com/crust87/motionpicturegenerator/player/ExoVideoView.java:449-457 | one fan-out exactly when the current pair differs from the last reported one, none otherwise; afterwards the current pair is the last reported |
| Session.PushSurface | app/src/main/java/com/crust87/motionpicturegenerator/player/ExoVideoView.java:437-447 | without a video renderer nothing happens; otherwise the current surface is sent to it, blocking or not, and nothing else changes |
| Session.BlockingClearSurface | app/src/main/java/com/crust87/motionpicturegenerator/player/ExoVideoView.java:408-410 | nothing happens without a video renderer; with one, exactly one blocking push of the current surface is logged and nothing else changes |
| Session.OnSurfaceTextureAvailable | app/src/main/java/com/crust87/motionpicturegenerator/player/ExoVideoView.java:377-383 | the surface is recorded and pushed without blocking only when an engine with a video renderer exists; engine, build state, listeners and last report unchanged |
| Session.OnSurfaceTextureDestroyed | app/src/main/java/com/crust87/motionpicturegenerator/player/ExoVideoView.java:390-401 | the surface is pushed blocking while an engine with a video renderer exists, then forgotten; engine, build state, listeners and last report unchanged |
| Session.CreatePlayer | app/src/main/java/com/crust87/motionpicturegenerator/player/ExoVideoView.java:171-181 | a new builder for the current content and a new engine with text disabled; building IDLE and preparation pending, with the installed renderers, counters, meter and video format kept; last reported state IDLE |
| Session.RebuildRenderers | app/src/main/java/com/crust87/motionpicturegenerator/player/ExoVideoView.java:183-194 | renderers and video format forgotten, BUILDING, (play-when-ready, PREPARING) reported, preparation no longer pending |
| Session.PreparePlayer | app/src/main/java/com/crust87/motionpicturegenerator/player/ExoVideoView.java:170-198 | an engine, adapter and builder exist afterwards, play-when-ready equals the argument, and no preparation is pending |
| Session.SetContentUri | app/src/main/java/com/crust87/motionpicturegenerator/player/ExoVideoView.java:164-168 | the content is recorded and the session is prepared with play-when-ready on: an engine and a builder exist, no preparation is pending, and the log only grows |
| Session.StopPlayback | app/src/main/java/com/crust87/motionpicturegenerator/player/ExoVideoView.java:200-208 | nothing without an engine; otherwise builder cancelled, building IDLE, engine released and dropped together with its adapter |
| Session.Release | app/src/main/java/com/crust87/motionpicturegenerator/player/ExoVideoView.java:553-557 | builder cancelled, building IDLE, engine released; no listener hears anything and the engine reference is kept |
| Session.CodecCountersOf | app/src/main/java/com/crust87/motionpicturegenerator/player/ExoVideoView.java:521-524 | the exposed counters come from the video renderer when it is codec-backed, else from the audio renderer when it is, else none |
| Session.OnRenderers | app/src/main/java/com/crust87/motionpicturegenerator/player/ExoVideoView.java:512-529 | the normalised set's video slot becomes the video renderer, counters and meter are recorded, the video format is kept, the surface is pushed to it, the set is handed to the engine, BUILT |
| Session.OnRenderersError | app/src/main/java/com/crust87/motionpicturegenerator/player/ExoVideoView.java:536-543 | the log grows by exactly: the internal-error listener's notice if one is set, the error to every listener, then a state report only if the engine's pair differs from the last one reported; building IDLE, preparation pending |
| Session.OnPlayerError | app/src/main/java/com/crust87/motionpicturegenerator/player/ExoVideoView.java:587-591 | building IDLE, preparation pending, every listener hears the error |
| Session.OnPlayerStateChanged | app/src/main/java/com/crust87/motionpicturegenerator/player/ExoVideoView.java:577-580 | the engine takes the new pair and the log grows by exactly one fan-out when the reported pair changes, none otherwise, with PREPARING substituted while building or while built on an idle engine; nothing else in the engine changes |
| Session.OnEngineProgress | app/src/main/java/com/crust87/motionpicturegenerator/player/ExoVideoView.java:242-318 | with an engine, only the adapter's readings change; without one nothing changes |
| Session.OnDownstreamFormatChanged | app/src/main/java/com/crust87/motionpicturegenerator/player/ExoVideoView.java:608-619 | nothing without an info listener or for sources other than video and audio; a video format is remembered and announced, an audio format announced; engine, display, listeners and last report unchanged |
| Session.SetSelectedTrack | app/src/main/java/com/crust87/motionpicturegenerator/player/ExoVideoView.java:416-421 | the category's selection becomes the index; disabling text also clears the captions when a caption listener is set |
| Session.SetBackgrounded | app/src/main/java/com/crust87/motionpicturegenerator/player/ExoVideoView.java:423-435 | no-op when the flag is unchanged; backgrounding saves the video selection, disables video and logs exactly one blocking push of the current surface when a video renderer exists; foregrounding selects the saved index and logs nothing |
| Session.OnCues | app/src/main/java/com/crust87/motionpicturegenerator/player/ExoVideoView.java:683-688 | cues reach the caption listener only when one is set and text is not disabled |
| Session.OnMetadata | app/src/main/java/com/crust87/motionpicturegenerator/player/ExoVideoView.java:690-695 | metadata reaches the ID3 listener only while the metadata track is not disabled |
| Session.SetPlayWhenReady | app/src/main/java/com/crust87/motionpicturegenerator/player/ExoVideoView.java:545-547 | only the engine's play-when-ready flag changes: builder, content, adapter and the rest of the session are untouched |
| Session.SeekTo | app/src/main/java/com/crust87/motionpicturegenerator/player/ExoVideoView.java:549-551 | the engine is told to seek and nothing else changes |
| Session.Start | app/src/main/java/com/crust87/motionpicturegenerator/player/ExoVideoView.java:228-232 | forwarded to the adapter when there is one, ignored otherwise |
| Session.Pause | app/src/main/java/com/crust87/motionpicturegenerator/player/ExoVideoView.java:235-239 | forwarded to the adapter when there is one, ignored otherwise |
| Session.ControlSeekTo | app/src/main/java/com/crust87/motionpicturegenerator/player/ExoVideoView.java:260-264 | forwarded to the adapter when there is one, ignored otherwise |
| Session.GetDuration | app/src/main/java/com/crust87/motionpicturegenerator/player/ExoVideoView.java:242-248 | 0 without an adapter, the adapter's answer with one |
| Session.GetCurrentPosition | app/src/main/java/com/crust87/motionpicturegenerator/player/ExoVideoView.java:251-257 | 0 without an adapter, the adapter's answer with one |
| Session.IsPlaying | app/src/main/java/com/crust87/motionpicturegenerator/player/ExoVideoView.java:267-273 | false without an adapter, the adapter's answer with one |
| Session.GetBufferPercentage | app/src/main/java/com/crust87/motionpicturegenerator/player/ExoVideoView.java:276-282 | 0 without an adapter, the adapter's answer with one |
| Session.CanPause | app/src/main/java/com/crust87/motionpicturegenerator/player/ExoVideoView.java:285-291 | false without an adapter, the adapter's answer with one |
| Session.CanSeekBackward | app/src/main/java/com/crust87/motionpicturegenerator/player/ExoVideoView.java:294-300 | false without an adapter, the adapter's answer with one |
| Session.CanSeekForward | app/src/main/java/com/crust87/motionpicturegenerator/player/ExoVideoView.java:303-309 | false without an adapter, the adapter's answer with one |
| Session.GetAudioSessionId | app/src/main/java/com/crust87/motionpicturegenerator/player/ExoVideoView.java:312-318 | 0 without an adapter, the adapter's answer with one |
| Session.AddSessionListener | app/src/main/java/com/crust87/motionpicturegenerator/player/ExoVideoView.java:472-474 | only the listener registrations change, by one appended registration |
| Session.RemoveSessionListener | app/src/main/java/com/crust87/motionpicturegenerator/player/ExoVideoView.java:476-478 | only the listener registrations change, by one removed registration |
| Session.SetCaptionListener | app/src/main/java/com/crust87/motionpicturegenerator/player/ExoVideoView.java:488-490 | the caption listener is set or cleared and nothing else about the view changes |
| Session.SetInternalErrorListener | app/src/main/java/com/crust87/motionpicturegenerator/player/ExoVideoView.java:480-482 | the internal-error listener is set or cleared and nothing else about the view changes |
| Session.SetInfoListener | app/src/main/java/com/crust87/motionpicturegenerator/player/ExoVideoView.java:484-486 | the info listener is set or cleared and nothing else about the view changes |
| SessionProperties.ReportedStateAgreesWithEngine | app/src/main/java/com/crust87/motionpicturegenerator/player/ExoVideoView.java:459-470 | IDLE is reported exactly when nothing is being built or installed and the engine is idle; any other disagreement with the engine is PREPARING |
| SessionProperties.ReportTwiceEmitsOnce | app/src/main/java/com/crust87/motionpicturegenerator/player/ExoVideoView.java:449-457 | reporting twice with no change in between emits one fan-out |
| SessionProperties.ReportReachesEveryListener | app/src/main/java/com/crust87/motionpicturegenerator/player/ExoVideoView.java:449-457 | a changed pair reaches each listener once per registration and nothing else is emitted |
| SessionProperties.PrepareWithoutEngine | app/src/main/java/com/crust87/motionpicturegenerator/player/ExoVideoView.java:170-198 | on a session without an engine: builder for the content, text disabled, BUILDING, builder cancelled, (false, PREPARING) reported, build requested, engine never stopped |
| SessionProperties.PrepareWhenPending | app/src/main/java/com/crust87/motionpicturegenerator/player/ExoVideoView.java:183-194 | a pending preparation forgets renderers and format, enters BUILDING, keeps builder and selections, and reports PREPARING |
| SessionProperties.RebuildEffectsInOrder | app/src/main/java/com/crust87/motionpicturegenerator/player/ExoVideoView.java:183-194 | a rebuild stops the engine only if renderers were built, then cancels, reports and requests a build, in that order |
| SessionProperties.PrepareWhenPendingEffects | app/src/main/java/com/crust87/motionpicturegenerator/player/ExoVideoView.java:170-198 | a pending preparation has exactly the rebuild's effects |
| SessionProperties.PrepareStopsOnlyBuiltEngine | app/src/main/java/com/crust87/motionpicturegenerator/player/ExoVideoView.java:170-198 | preparing stops the engine exactly when a preparation is pending and renderers were built |
| SessionProperties.NewEngineIsNotStopped | app/src/main/java/com/crust87/motionpicturegenerator/player/ExoVideoView.java:170-181 | a newly created engine is never stopped |
| SessionProperties.PendingPrepareStopsBuiltEngine | app/src/main/java/com/crust87/motionpicturegenerator/player/ExoVideoView.java:183-186 | with a preparation pending, the engine is stopped exactly when renderers were built |
| SessionProperties.PrepareWhenAlreadyPrepared | app/src/main/java/com/crust87/motionpicturegenerator/player/ExoVideoView.java:196-197 | without a pending preparation only the surface push and play-when-ready happen |
| SessionProperties.NewContentNeedsStoppedEngine | app/src/main/java/com/crust87/motionpicturegenerator/player/ExoVideoView.java:164-181 | new content reaches the builder only when the engine was stopped first |
| SessionProperties.ErrorThenPrepareRebuilds | app/src/main/java/com/crust87/motionpicturegenerator/player/ExoVideoView.java:587-591 | after an engine error the next preparation requests a new build from the builder |
| SessionProperties.BuildErrorTellsEachListener | app/src/main/java/com/crust87/motionpicturegenerator/player/ExoVideoView.java:536-543 | a build failure reaches each listener once per registration before the state is re-reported |
| SessionProperties.BuildErrorThenPrepareRebuilds | app/src/main/java/com/crust87/motionpicturegenerator/player/ExoVideoView.java:536-543 | after a build failure the next preparation rebuilds |
| SessionProperties.StoppedSessionAnswersNothing | app/src/main/java/com/crust87/motionpicturegenerator/player/ExoVideoView.java:200-318 | after stopPlayback every MediaController query answers 0 or false and every command is ignored |
| SessionProperties.ControllerReadsEngine | app/src/main/java/com/crust87/motionpicturegenerator/player/ExoVideoView.java:242-318 | while the adapter exists, every MediaController query answers the engine's latest readings |
| SessionProperties.PrepareAfterReleaseReusesEngine | app/src/main/java/com/crust87/motionpicturegenerator/player/ExoVideoView.java:553-557 | release keeps the engine, and a later preparation with nothing pending neither recreates it nor requests a build |
| SessionProperties.ReleaseTwice | app/src/main/java/com/crust87/motionpicturegenerator/player/ExoVideoView.java:553-557 | release tells no listener anything; releasing again repeats only the cancel and release commands |
| SessionProperties.BackgroundRoundTrip | app/src/main/java/com/crust87/motionpicturegenerator/player/ExoVideoView.java:423-435 | backgrounding then foregrounding leaves the engine exactly as it was |
| SessionProperties.BackgroundedDisablesVideo | app/src/main/java/com/crust87/motionpicturegenerator/player/ExoVideoView.java:423-435 | a backgrounded view has video disabled, and backgrounding twice is backgrounding once |
| SessionProperties.SelectThenGet | app/src/main/java/com/crust87/motionpicturegenerator/player/ExoVideoView.java:412-421 | getSelectedTrack reads back the index setSelectedTrack wrote, and every other category keeps its selection |
| SessionProperties.CuesFollowTextSelection | app/src/main/java/com/crust87/motionpicturegenerator/player/ExoVideoView.java:416-421 | with text disabled cues are dropped; with a text track selected they reach the caption listener |
| SessionProperties.MetadataFollowsSelection | app/src/main/java/com/crust87/motionpicturegenerator/player/ExoVideoView.java:690-695 | metadata reaches the ID3 listener exactly when the metadata track is not disabled |
| SessionProperties.FreshEngineDropsCues | app/src/main/java/com/crust87/motionpicturegenerator/player/ExoVideoView.java:178-179 | a freshly created engine drops cues until a text track is selected |
| SessionProperties.RenderersInstalled | app/src/main/java/com/crust87/motionpicturegenerator/player/ExoVideoView.java:512-529 | after installation the reported state follows the engine, and the engine receives every present unit in its slot and placeholders elsewhere |
| SessionProperties.ListenerRegistrationRoundTrip | app/src/main/java/com/crust87/motionpicturegenerator/player/ExoVideoView.java:472-478 | registering then removing a new listener restores the session |
| AudioRoute.ExecStmt | app/src/main/java/com/crust87/motionpicturegenerator/player/ExoVideoView.java:219-222 | reading play-when-ready fails exactly on a null engine; the other statements always complete |
| AudioRoute.Exec | app/src/main/java/com/crust87/motionpicturegenerator/player/ExoVideoView.java:219-222 | a statement sequence that completes keeps every engine paired with a builder and only appends effects |
| AudioRoute.HandlerAsWrittenAlwaysCrashes | app/src/main/java/com/crust87/motionpicturegenerator/player/ExoVideoView.java:219-222 | the handler as written dereferences a null engine for every session |
| AudioRoute.ReapplyingOwnFlagIsNoOp | app/src/main/java/com/crust87/motionpicturegenerator/player/ExoVideoView.java:423-426 | setBackgrounded with the view's own flag changes nothing |
| AudioRoute.RebuildAsWritten | app/src/main/java/com/crust87/motionpicturegenerator/player/ExoVideoView.java:219-222 | the handler's stop, prepare and re-apply steps leave an engine and the display state unchanged |
| AudioRoute.RebuildAsWrittenLeavesVideoOn | app/src/main/java/com/crust87/motionpicturegenerator/player/ExoVideoView.java:219-222 | those steps leave a backgrounded view with video selected on the new engine |
| AudioRoute.OnAudioCapabilitiesChanged | app/src/main/java/com/crust87/motionpicturegenerator/player/ExoVideoView.java:219-222 | corrected handler: play-when-ready, background flag, surface, content and observers survive the rebuild |
| AudioRoute.RouteChangeRebuildsInSameBackgroundState | app/src/main/java/com/crust87/motionpicturegenerator/player/ExoVideoView.java:219-222 | the corrected rebuild starts a build for the content; the new selection is the fresh engine's (text disabled) with video disabled exactly when backgrounded |
| AudioRoute.ForegroundAfterRouteChangeRestoresVideo | app/src/main/java/com/crust87/motionpicturegenerator/player/ExoVideoView.java:219-222 | foregrounding after a corrected rebuild turns video back on |
| SurfaceRelease.SurfaceDestroyedHandsOverReleasedSurface | app/src/main/java/com/crust87/motionpicturegenerator/player/ExoVideoView.java:390-401 | as written, the destroy callback sends the renderer, blocking, the very surface it then drops |
| SurfaceRelease.OnSurfaceTextureDestroyedCorrected | app/src/main/java/com/crust87/motionpicturegenerator/player/ExoVideoView.java:390-401 | corrected: the surface is dropped first, so the renderer is sent no surface, blocking, when an engine and a video renderer exist |
| SurfaceRelease.CorrectedSurfaceDestroyedDetachesRenderer | app/src/main/java/com/crust87/motionpicturegenerator/player/ExoVideoView.java:390-401 | the corrected callback only ever sends the empty surface and otherwise agrees with the callback as written |
| Lifecycle.Step | app/src/main/java/com/crust87/motionpicturegenerator/player/ExoVideoView.java:164-695 | a command fails exactly when `Crashes` holds, that is where the Java code would dereference a null engine; otherwise it runs the matching operation |
| Lifecycle.Crashes | app/src/main/java/com/crust87/motionpicturegenerator/player/ExoVideoView.java:164-695 | with an engine, only a renderer array of the wrong length and the route handler fail. Without one: release, both renderer-builder callbacks, the state-change callback, track selection, metadata, setPlayWhenReady, seekTo(long), the selected-track query and the route handler always fail; backgrounding fails when the flag changes, cues with a caption listener, the state query outside BUILDING, blockingClearSurface with a video renderer; every other command, engine progress included, succeeds |
| Lifecycle.StepPreservesWired | app/src/main/java/com/crust87/motionpicturegenerator/player/ExoVideoView.java:170-208 | every command that completes keeps the adapter present exactly with the engine and the builder with the engine |
| Lifecycle.LifecycleCommandPreservesWired | app/src/main/java/com/crust87/motionpicturegenerator/player/ExoVideoView.java:164-208 | creating, preparing, stopping and releasing keep the adapter and builder paired with the engine |
| Lifecycle.CallbackPreservesWired | app/src/main/java/com/crust87/motionpicturegenerator/player/ExoVideoView.java:377-619 | callbacks never add or remove the engine, the adapter or the builder |
| Lifecycle.Run | app/src/main/java/com/crust87/motionpicturegenerator/player/ExoVideoView.java:164-695 | every completed run keeps the view wired and only appends effects |
| Lifecycle.RunCrashesAtFirstNullEngine | app/src/main/java/com/crust87/motionpicturegenerator/player/ExoVideoView.java:164-695 | a run fails exactly when some command meets a null engine in the state its predecessors left |
| Lifecycle.InitialSessionIsWired | app/src/main/java/com/crust87/motionpicturegenerator/player/ExoVideoView.java:154-161 | a new view is wired and stays wired under every run |
| Lifecycle.WiredViewToleratesMissingEngine | app/src/main/java/com/crust87/motionpicturegenerator/player/ExoVideoView.java:164-318 | controller commands, surface callbacks, listener changes, stop, prepare, content changes, engine errors, format changes and the corrected callbacks never fail on a missing engine |
| Lifecycle.StoppedViewSeeks | app/src/main/java/com/crust87/motionpicturegenerator/player/ExoVideoView.java:200-264 | after stopPlayback a direct seek fails on the null engine while a controller seek is ignored |
| Lifecycle.RouteChangeCrashesAsWritten | app/src/main/java/com/crust87/motionpicturegenerator/player/ExoVideoView.java:217-224 | the route-change command fails exactly when the statement-by-statement handler as written does |
| Lifecycle.StoppedViewCannotClearSurface | app/src/main/java/com/crust87/motionpicturegenerator/player/ExoVideoView.java:408-410 | after stopPlayback on a view whose renderers were built, blockingClearSurface dereferences the null engine |
| Lifecycle.StoppedViewCannotReportState | app/src/main/java/com/crust87/motionpicturegenerator/player/ExoVideoView.java:459-470 | getPlaybackState on a stopped view dereferences the null engine |
| Lifecycle.PlaybackStateQueryCrashesOutsidePrecondition | app/src/main/java/com/crust87/motionpicturegenerator/player/ExoVideoView.java:459-470 | for every session, the state query fails exactly where GetPlaybackState's precondition does not hold |
| Lifecycle.ProgressIsVisibleAfterPrepare | app/src/main/java/com/crust87/motionpicturegenerator/player/ExoVideoView.java:251-273 | after preparing a new view and some engine progress, the MediaController reports the engine's position and playing flag |

## Left out

- Video-size fan-out (`onVideoSizeChanged`, ExoVideoView.java:362-373): it carries a float aspect ratio and changes no session state.
- Pure pass-through forwarding to the info and internal-error listeners (dropped frames, bandwidth samples, load events, decoder and audio-track errors, DRM and crypto errors): it forwards arguments unchanged and touches no session state. `onDownstreamFormatChanged` is modelled because it also records the video format.
- ID3 metadata logging inside the view's own metadata listener: logging only. The listener is always present, which `OnMetadata` reflects.
- `getTrackCount`, `getTrackFormat`, `getBufferedPercentage`, `getPlayWhenReady`, `getPlaybackLooper`, `getMainHandler`, `getBackgrounded` and `onPlayWhenReadyCommitted`: direct reads of engine internals or of one field, with no logic of their own. The engine reads among them dereference the engine without a null check, so they fail on a view without an engine, as `getSelectedTrack` does.
- Session.Start, Session.Pause: the adapter's effect on the engine is not modelled; only the command is logged. A changed play-when-ready flag reaches the model only through a later `PlayerStateChanged` callback.
- Engine internals: how the engine's playback state evolves, what `prepare` does, and what acknowledging `blockingSendMessage` means. These belong to a library that is not part of this model. The engine's state is a parameter of `OnPlayerStateChanged`, and a surface push is a logged command with a blocking flag.
- The arithmetic of the engine's `PlayerControl` adapter: its answers are readings the engine supplies through `Session.OnEngineProgress`. Nothing relates them to each other, so the position is not kept within the duration.
- Builder internals (`ExtractorRendererBuilder`) and the timing of its callbacks: the builder is modelled by its source, a cancel command and a build request.
- Thread-safety of the `CopyOnWriteArrayList` of listeners: fan-out is over a plain sequence.
- Surface objects: creating and releasing an Android `Surface` is modelled as recording or forgetting a surface identity.
- Registering and unregistering the audio-capabilities receiver (`init`, `onDetachedFromWindow`): platform I/O.
- Lifecycle.Crashes: renderer arrays whose length is not RENDERER_COUNT: `OnRenderers` requires length 4, and `Lifecycle.Step` treats any other length as a failure. A longer array would be accepted by the Java code and handed to the engine whole.
- The Java zero-initialised building and reported states before the first preparation: these fields cannot be observed before an engine exists. The initial session uses building IDLE and reported IDLE.
- Session.PreparePlayer: its own contract states only what holds on every path. What each path does is proved in `SessionProperties.PrepareWithoutEngine`, `PrepareWhenPending`, `PrepareWhenPendingEffects` and `PrepareWhenAlreadyPrepared`.
- Session.RebuildRenderers: its own contract does not list its effects. Their order is proved in `SessionProperties.RebuildEffectsInOrder`.

## Findings

| source | as written | input that shows it | evidently intended | confidence | as-written member | corrected member |
|---|---|---|---|---|---|---|
| app/src/main/java/com/crust87/motionpicturegenerator/player/ExoVideoView.java:219-222 | `stopPlayback()` sets the engine to null, and the next statement reads `getPlayWhenReady()` from that engine | any audio-capabilities change, with or without an engine (`AudioRoute.HandlerAsWrittenAlwaysCrashes`) | read play-when-ready before stopping, and do nothing when there is no engine | high; not executed | AudioRoute.Exec | AudioRoute.OnAudioCapabilitiesChanged |
| app/src/main/java/com/crust87/motionpicturegenerator/player/ExoVideoView.java:222 | `setBackgrounded(backgrounded)` passes the view's own flag, so the guard at line 424 returns at once | a backgrounded view with an engine whose audio route changes: the rebuilt engine has video selected (`AudioRoute.RebuildAsWrittenLeavesVideoOn`) | the rebuilt engine is put in the background state again, with its video track disabled | medium; not executed | AudioRoute.RebuildAsWritten | AudioRoute.RouteChangeRebuildsInSameBackgroundState |
| app/src/main/java/com/crust87/motionpicturegenerator/player/ExoVideoView.java:390-401 | with an engine, the destroy callback pushes `mSurface` blocking and only then releases it and sets it to null | an engine with a video renderer and a surface, then the surface is destroyed: the renderer's last surface is the released one (`SurfaceRelease.SurfaceDestroyedHandsOverReleasedSurface`) | drop the surface first, so the blocking push detaches the renderer before the surface is released | medium; not executed | SurfaceRelease.SurfaceDestroyedHandsOverReleasedSurface | SurfaceRelease.OnSurfaceTextureDestroyedCorrected |

=== FILE: audio_route.dfy ===
/** The audio-capabilities listener (ExoVideoView.java:216-224), which tears
    the engine down and rebuilds it when the audio route changes. The handler
    as written is modelled statement by statement, so that its null
    dereference is an outcome rather than a precondition. The corrected
    handler is reachable only as the separate command `CorrectedRouteChange`
    of the lifecycle. */
module AudioRoute {
  import opened Wrappers
  import opened Tracks
  import opened Events
  import opened Session

  /** How a Java statement sequence can end abnormally. */
  datatype Crash = NullEngineDereference

  /** The three statements of the handler as written: stop the session;
      prepare again with the play-when-ready flag read from the engine field;
      call setBackgrounded with the view's own background flag. */
  datatype Stmt =
    | StopPlaybackStmt
    | PrepareWithEnginePlayWhenReady
    | SetBackgroundedToOwnFlag

  const HandlerAsWritten: seq<Stmt> := [StopPlaybackStmt, PrepareWithEnginePlayWhenReady, SetBackgroundedToOwnFlag]

  /** One statement: reading play-when-ready from a null engine crashes. */
  function ExecStmt(s: Session, st: Stmt): (r: Result<Session, Crash>)
    requires EngineHasBuilder(s)
    ensures r.Failure? <==> st == PrepareWithEnginePlayWhenReady && s.engine.player.None?
    ensures r.Success? ==> EngineHasBuilder(r.value) && s.log <= r.value.log
  {
    match st
    case StopPlaybackStmt => Success(StopPlayback(s))
    case PrepareWithEnginePlayWhenReady =>
      if s.engine.player.None? then Failure(NullEngineDereference)
      else Success(PreparePlayer(s, s.engine.player.value.playWhenReady))
    case SetBackgroundedToOwnFlag => Success(SetBackgrounded(s, s.display.backgrounded))
  }

  /** A statement sequence, stopping at the first crash. */
  function Exec(s: Session, body: seq<Stmt>): (r: Result<Session, Crash>)
    requires EngineHasBuilder(s)
    ensures r.Success? ==> EngineHasBuilder(r.value) && s.log <= r.value.log
    decreases |body|
  {
    if body == [] then Success(s)
    else
      match ExecStmt(s, body[0])
      case Failure(c) => Failure(c)
      case Success(next) => Exec(next, body[1..])
  }

  /** stopPlayback leaves no engine behind, so the handler as written always
      dereferences a null engine on its second statement, whether or not an
      engine existed when the route changed. */
  lemma HandlerAsWrittenAlwaysCrashes(s: Session)
    requires EngineHasBuilder(s)
    ensures Exec(s, HandlerAsWritten) == Failure(NullEngineDereference)
  {
    var stopped := StopPlayback(s);
    assert ExecStmt(s, StopPlaybackStmt) == Success(stopped);
    assert HandlerAsWritten[1..] == [PrepareWithEnginePlayWhenReady, SetBackgroundedToOwnFlag];
    assert ExecStmt(stopped, PrepareWithEnginePlayWhenReady) == Failure(NullEngineDereference);
  }

  /** setBackgrounded(backgrounded) with the view's own flag hits the
      "unchanged" guard and does nothing. */
  lemma ReapplyingOwnFlagIsNoOp(s: Session)
    ensures SetBackgrounded(s, s.display.backgrounded) == s
  {
  }

  /** The handler's tail as written, with play-when-ready supplied from
      outside so that it does not crash: stop, prepare, re-apply the flag. */
  function RebuildAsWritten(s: Session, playWhenReady: bool): (r: Session)
    requires EngineHasBuilder(s)
    ensures r.engine.player.Some? && r.display == s.display
  {
    SetBackgrounded(PreparePlayer(StopPlayback(s), playWhenReady), s.display.backgrounded)
  }

  /** Even with the crash avoided, the tail as written leaves a backgrounded
      view playing video: the rebuilt engine starts with the video track
      selected while the flag still says backgrounded. */
  lemma RebuildAsWrittenLeavesVideoOn(s: Session, playWhenReady: bool)
    requires EngineHasBuilder(s) && s.display.backgrounded
    ensures var r := RebuildAsWritten(s, playWhenReady);
      && r.display.backgrounded
      && r.engine.player.value.selected[TypeVideo] == TrackDefault
  {
    var stopped := StopPlayback(s);
    var prepared := PreparePlayer(stopped, playWhenReady);
    assert prepared.engine.player.value.selected == CreatedPlayer.selected by {
      assert CreatePlayer(stopped).engine.player == Some(CreatedPlayer);
    }
  }

  /** onAudioCapabilitiesChanged, corrected: with no engine there is nothing
      to rebuild; otherwise play-when-ready is read before the engine is
      stopped, the engine is prepared again, and the background state is
      re-applied to the new engine by clearing the flag first. */
  function OnAudioCapabilitiesChanged(s: Session): (r: Session)
    requires EngineHasBuilder(s)
    ensures s.engine.player.None? ==> r == s
    ensures s.engine.player.Some? ==>
      && r.engine.player.Some?
      && r.engine.player.value.playWhenReady == s.engine.player.value.playWhenReady
      && r.display.backgrounded == s.display.backgrounded
      && r.display.surface == s.display.surface
      && r.engine.contentUri == s.engine.contentUri
      && r.observers == s.observers
      && s.log <= r.log
  {
    if s.engine.player.None? then s
    else
      var playWhenReady := s.engine.player.value.playWhenReady;
      var backgrounded := s.display.backgrounded;
      var prepared := PreparePlayer(StopPlayback(s), playWhenReady);
      SetBackgrounded(prepared.(display := prepared.display.(backgrounded := false)), backgrounded)
  }

  /** After a route change the engine is rebuilt from the current content,
      and a backgrounded view has its video track disabled on the new engine,
      with the new engine's default selection saved for foregrounding. Every
      other selection made on the old engine is lost: the new engine starts
      from its defaults with text disabled. */
  lemma RouteChangeRebuildsInSameBackgroundState(s: Session)
    requires EngineHasBuilder(s) && s.engine.player.Some?
    ensures var r := OnAudioCapabilitiesChanged(s);
      && r.engine.builder == Some(Builder(s.engine.contentUri))
      && r.build.state == Building
      && (s.display.backgrounded ==>
            && r.engine.player.value.selected[TypeVideo] == TrackDisabled
            && r.display.videoTrackToRestore == TrackDefault)
      && (!s.display.backgrounded ==> r.engine.player.value.selected[TypeVideo] == TrackDefault)
      && r.engine.player.value.selected[TypeText] == TrackDisabled
      && r.engine.player.value.selected
         == CreatedPlayer.selected[TypeVideo := if s.display.backgrounded then TrackDisabled else TrackDefault]
  {
    var stopped := StopPlayback(s);
    var prepared := PreparePlayer(stopped, s.engine.player.value.playWhenReady);
    assert prepared.engine.player.value.selected == CreatedPlayer.selected by {
      assert CreatePlayer(stopped).engine.player == Some(CreatedPlayer);
    }
    assert prepared.build.state == Building && prepared.engine.builder == Some(Builder(s.engine.contentUri)) by {
      assert CreatePlayer(stopped).build.needsPrepare;
    }
  }

  /** Foregrounding after a route change in the background turns the video
      track back on. */
  lemma ForegroundAfterRouteChangeRestoresVideo(s: Session)
    requires EngineHasBuilder(s) && s.engine.player.Some? && s.display.backgrounded
    ensures var r := SetBackgrounded(OnAudioCapabilitiesChanged(s), false);
      r.engine.player.value.selected[TypeVideo] == TrackDefault && !r.display.backgrounded
  {
    RouteChangeRebuildsInSameBackgroundState(s);
  }
}

=== FILE: events.dfy ===
/** Values that flow out of the playback view, and the fan-out of one event to
    every registered listener (ExoVideoView.java:346-368, 472-478, 745-752). */
module Events {
  import opened Wrappers
  import opened Tracks

  /** A registered `ExoVideoView.Listener`, by identity. */
  type ListenerId = nat

  /** The engine's reported playback states STATE_IDLE .. STATE_ENDED. */
  datatype PlaybackState = Idle | Preparing | Buffering | Ready | Ended

  /** An exception handed to the error callbacks. */
  datatype ErrorValue = ErrorValue(message: string)

  /** A timed-text cue, an ID3 metadata map, a media format, a surface and a
      content reference; all are opaque to the view. */
  datatype Cue = Cue(text: string)
  type Metadata = map<string, string>
  datatype Format = Format(id: string)
  type SurfaceId = nat
  type Uri = string
  datatype BandwidthMeter = BandwidthMeter(id: nat)

  /** What a core listener is told: `onStateChanged` or `onError`. */
  datatype Payload =
    | StateChanged(playWhenReady: bool, state: PlaybackState)
    | Error(error: ErrorValue)

  /** Everything observable the view does, in the order it does it: callbacks
      delivered to its listeners and commands sent to the engine, the renderer
      builder and the MediaController adapter. */
  datatype Effect =
      // callbacks
    | Delivered(listener: ListenerId, payload: Payload)
    | RendererInitializationError(error: ErrorValue)
    | CuesDelivered(cues: seq<Cue>)
    | Id3Delivered(metadata: Metadata)
    | VideoFormatEnabled(format: Format, trigger: int, mediaTimeMs: int)
    | AudioFormatEnabled(format: Format, trigger: int, mediaTimeMs: int)
      // renderer builder
    | BuilderCancelled
    | BuildRequested(source: Option<Uri>)
      // engine
    | PlayerStopped
    | PlayerPrepared(renderers: RendererSet)
    | SurfaceSent(renderer: Renderer, surface: Option<SurfaceId>, blocking: bool)
    | PlayerReleased
    | PlayerSeek(positionMs: int)
      // MediaController adapter
    | ControlStart
    | ControlPause
    | ControlSeek(positionMs: int)

  /** Delivery of one payload to every listener, in list order. */
  function FanOut(listeners: seq<ListenerId>, payload: Payload): (r: seq<Effect>)
    ensures |r| == |listeners|
    ensures forall i :: 0 <= i < |listeners| ==> r[i] == Delivered(listeners[i], payload)
  {
    if listeners == [] then []
    else [Delivered(listeners[0], payload)] + FanOut(listeners[1..], payload)
  }

  /** Every registration receives the payload exactly once: a listener
      registered k times is called k times, one never registered not at all. */
  lemma {:induction false} FanOutDeliversOncePerRegistration(listeners: seq<ListenerId>, payload: Payload, l: ListenerId)
    ensures multiset(FanOut(listeners, payload))[Delivered(l, payload)] == multiset(listeners)[l]
  {
    if listeners != [] {
      FanOutDeliversOncePerRegistration(listeners[1..], payload, l);
      assert listeners == [listeners[0]] + listeners[1..];
      assert FanOut(listeners, payload) == [Delivered(listeners[0], payload)] + FanOut(listeners[1..], payload);
    }
  }

  /** A fan-out carries nothing but deliveries of its one payload. */
  lemma FanOutOnlyDelivers(listeners: seq<ListenerId>, payload: Payload, e: Effect)
    requires e in FanOut(listeners, payload)
    ensures e.Delivered? && e.payload == payload && e.listener in listeners
  {
    var i :| 0 <= i < |FanOut(listeners, payload)| && FanOut(listeners, payload)[i] == e;
  }

  /** addListener: the copy-on-write list appends, duplicates allowed. */
  function AddListener(listeners: seq<ListenerId>, l: ListenerId): (r: seq<ListenerId>)
    ensures |r| == |listeners| + 1 && r[..|listeners|] == listeners && r[|listeners|] == l
    ensures multiset(r) == multiset(listeners) + multiset{l}
  {
    listeners + [l]
  }

  /** The position of the first registration of `l`. */
  function FirstIndex(listeners: seq<ListenerId>, l: ListenerId): (i: nat)
    requires l in listeners
    ensures i < |listeners| && listeners[i] == l && l !in listeners[..i]
  {
    if listeners[0] == l then 0
    else
      assert l in listeners[1..] by { assert listeners == [listeners[0]] + listeners[1..]; }
      var j := FirstIndex(listeners[1..], l);
      assert listeners[..j + 1] == [listeners[0]] + listeners[1..][..j];
      j + 1
  }

  /** removeListener: drops the first registration of `l`, if any, keeping the
      order of the others. */
  function RemoveListener(listeners: seq<ListenerId>, l: ListenerId): (r: seq<ListenerId>)
    ensures l in listeners ==> multiset(r) == multiset(listeners) - multiset{l}
    ensures l !in listeners ==> r == listeners
    ensures |r| == if l in listeners then |listeners| - 1 else |listeners|
  {
    if listeners == [] then []
    else
      assert listeners == [listeners[0]] + listeners[1..];
      if listeners[0] == l then listeners[1..]
      else [listeners[0]] + RemoveListener(listeners[1..], l)
  }

  /** removeListener drops the first registration of `l` and keeps the others
      in their order. */
  lemma {:induction false} RemoveListenerDropsFirst(listeners: seq<ListenerId>, l: ListenerId)
    requires l in listeners
    ensures var i := FirstIndex(listeners, l);
      RemoveListener(listeners, l) == listeners[..i] + listeners[i + 1..]
  {
    if listeners[0] == l {
      assert FirstIndex(listeners, l) == 0;
      assert listeners[..0] + listeners[0 + 1..] == listeners[1..];
    } else {
      assert l in listeners[1..] by { assert listeners == [listeners[0]] + listeners[1..]; }
      var tail := listeners[1..];
      RemoveListenerDropsFirst(tail, l);
      var j := FirstIndex(tail, l);
      assert FirstIndex(listeners, l) == j + 1;
      assert listeners == [listeners[0]] + tail;
      ConsOfRemoval(listeners[0], tail, j);
    }
  }

  /** Putting an element in front commutes with cutting out position `j`. */
  lemma ConsOfRemoval<T>(x: T, tail: seq<T>, j: nat)
    requires j < |tail|
    ensures [x] + (tail[..j] + tail[j + 1..]) == ([x] + tail)[..j + 1] + ([x] + tail)[j + 2..]
  {
    assert ([x] + tail)[..j + 1] == [x] + tail[..j];
    assert ([x] + tail)[j + 2..] == tail[j + 1..];
  }

  /** Removing a listener right after adding it restores the list when it was
      not registered before. */
  lemma RemoveUndoesAdd(listeners: seq<ListenerId>, l: ListenerId)
    requires l !in listeners
    ensures RemoveListener(AddListener(listeners, l), l) == listeners
  {
    var added := AddListener(listeners, l);
    RemoveListenerDropsFirst(added, l);
    FirstIndexOfAppended(listeners, l);
    assert added[..|listeners|] + added[|listeners| + 1..] == listeners;
  }

  /** A listener registered only at the end is first found there. */
  lemma {:induction false} FirstIndexOfAppended(listeners: seq<ListenerId>, l: ListenerId)
    requires l !in listeners
    ensures FirstIndex(listeners + [l], l) == |listeners|
  {
    if listeners != [] {
      assert (listeners + [l])[0] == listeners[0];
      assert (listeners + [l])[1..] == listeners[1..] + [l];
      FirstIndexOfAppended(listeners[1..], l);
    }
  }
}

=== FILE: lifecycle.dfy ===
/** The view's public entry points and engine callbacks as one command type,
    and the object-graph invariant `Wired` (the MediaController adapter
    exists exactly when the engine does, and every engine has a builder)
    kept across every sequence of them. A command that would dereference a
    null engine in the Java code ends the run. */
module Lifecycle {
  import opened Wrappers
  import opened Tracks
  import opened Events
  import opened Session
  import AudioRoute
  import SurfaceRelease

  datatype Command =
    | SetContent(uri: Uri)
    | Prepare(playWhenReady: bool)
    | Stop
    | ReleaseEngine
    | SurfaceAvailable(surface: SurfaceId)
    | SurfaceDestroyed
    | RenderersBuilt(renderers: seq<Option<Renderer>>, meter: Option<BandwidthMeter>)
    | RenderersFailed(error: ErrorValue)
    | PlayerFailed(error: ErrorValue)
    | PlayerStateChanged(playWhenReady: bool, state: PlaybackState)
    | FormatChanged(sourceId: int, format: Format, trigger: int, mediaTimeMs: int)
    | SelectTrack(trackType: TrackType, index: int)
    | Background(backgrounded: bool)
    | CuesArrived(cues: seq<Cue>)
    | MetadataArrived(metadata: Metadata)
    | PlayWhenReady(playWhenReady: bool)
    | Seek(positionMs: int)
    | ControllerStart
    | ControllerPause
    | ControllerSeek(positionMs: int)
    | Subscribe(listener: ListenerId)
    | Unsubscribe(listener: ListenerId)
    | CaptionListener(present: bool)
    | InternalErrorListener(present: bool)
    | InfoListener(present: bool)
    | AudioCapabilitiesChanged
    | BlockingClear
    | CorrectedRouteChange
    | CorrectedSurfaceDestroyed
    | EngineProgressed(readings: ControlReadings)
    | QueryPlaybackState
    | QuerySelectedTrack(trackType: TrackType)

  /** Whether the Java code reaches a null engine reference (or, for a
      renderer array, one of the wrong length) when running `c` on `s`. The
      audio route handler as written always does; the two corrected commands
      are the repaired callbacks, which never do. With an engine present,
      only a malformed renderer array and the route handler crash. */
  function Crashes(s: Session, c: Command): (r: bool)
    ensures c.AudioCapabilitiesChanged? ==> r
    ensures s.engine.player.Some? ==>
      (r <==> c.AudioCapabilitiesChanged? || (c.RenderersBuilt? && |c.renderers| != RendererCount))
    ensures c.BlockingClear? ==> (r <==> s.build.videoRenderer.Some? && s.engine.player.None?)
    ensures s.engine.player.None? ==>
      (r <==>
         || c.ReleaseEngine? || c.RenderersBuilt? || c.RenderersFailed? || c.PlayerStateChanged?
         || c.SelectTrack? || c.MetadataArrived? || c.PlayWhenReady? || c.Seek?
         || c.QuerySelectedTrack? || c.AudioCapabilitiesChanged?
         || (c.Background? && c.backgrounded != s.display.backgrounded)
         || (c.CuesArrived? && s.observers.hasCaptionListener)
         || (c.QueryPlaybackState? && s.build.state != Building)
         || (c.BlockingClear? && s.build.videoRenderer.Some?))
  {
    match c
    case AudioCapabilitiesChanged => true
    case BlockingClear => s.build.videoRenderer.Some? && s.engine.player.None?
    case QueryPlaybackState => s.build.state != Building && s.engine.player.None?
    case QuerySelectedTrack(_) => s.engine.player.None?
    case ReleaseEngine => s.engine.player.None?
    case RenderersBuilt(renderers, _) => s.engine.player.None? || |renderers| != RendererCount
    case RenderersFailed(_) => s.engine.player.None?
    case PlayerStateChanged(_, _) => s.engine.player.None?
    case SelectTrack(_, _) => s.engine.player.None?
    case Background(b) => b != s.display.backgrounded && s.engine.player.None?
    case CuesArrived(_) => s.observers.hasCaptionListener && s.engine.player.None?
    case MetadataArrived(_) => s.engine.player.None?
    case PlayWhenReady(_) => s.engine.player.None?
    case Seek(_) => s.engine.player.None?
    case _ => false
  }

  /** One command: None when the Java code would crash. */
  function Step(s: Session, c: Command): (r: Option<Session>)
    requires Wired(s)
    ensures r.None? <==> Crashes(s, c)
  {
    if Crashes(s, c) then None
    else
      Some(match c
        case SetContent(uri) => SetContentUri(s, uri)
        case Prepare(pwr) => PreparePlayer(s, pwr)
        case Stop => StopPlayback(s)
        case ReleaseEngine => Release(s)
        case SurfaceAvailable(surface) => OnSurfaceTextureAvailable(s, surface)
        case SurfaceDestroyed => OnSurfaceTextureDestroyed(s)
        case RenderersBuilt(renderers, meter) => OnRenderers(s, renderers, meter)
        case RenderersFailed(e) => OnRenderersError(s, e)
        case PlayerFailed(e) => OnPlayerError(s, e)
        case PlayerStateChanged(pwr, state) => OnPlayerStateChanged(s, pwr, state)
        case FormatChanged(sourceId, format, trigger, mediaTimeMs) =>
          OnDownstreamFormatChanged(s, sourceId, format, trigger, mediaTimeMs)
        case SelectTrack(t, index) => SetSelectedTrack(s, t, index)
        case Background(b) => SetBackgrounded(s, b)
        case CuesArrived(cues) => OnCues(s, cues)
        case MetadataArrived(metadata) => OnMetadata(s, metadata)
        case PlayWhenReady(pwr) => SetPlayWhenReady(s, pwr)
        case Seek(positionMs) => SeekTo(s, positionMs)
        case ControllerStart => Start(s)
        case ControllerPause => Pause(s)
        case ControllerSeek(positionMs) => ControlSeekTo(s, positionMs)
        case Subscribe(l) => AddSessionListener(s, l)
        case Unsubscribe(l) => RemoveSessionListener(s, l)
        case CaptionListener(b) => SetCaptionListener(s, b)
        case InternalErrorListener(b) => SetInternalErrorListener(s, b)
        case InfoListener(b) => SetInfoListener(s, b)
        case AudioCapabilitiesChanged => s  // always crashes, see above
        case BlockingClear => BlockingClearSurface(s)
        case CorrectedRouteChange => AudioRoute.OnAudioCapabilitiesChanged(s)
        case CorrectedSurfaceDestroyed => SurfaceRelease.OnSurfaceTextureDestroyedCorrected(s)
        case EngineProgressed(readings) => OnEngineProgress(s, readings)
        case QueryPlaybackState => s  // a query changes nothing
        case QuerySelectedTrack(_) => s)
  }

  /** Every command that does not crash keeps the view wired and only
      appends to the log. */
  lemma StepPreservesWired(s: Session, c: Command)
    requires Wired(s) && !Crashes(s, c)
    ensures Wired(Step(s, c).value)
    ensures s.log <= Step(s, c).value.log
  {
    if IsLifecycleCommand(c) {
      LifecycleCommandPreservesWired(s, c);
    } else if IsCallback(c) {
      CallbackPreservesWired(s, c);
    }
  }

  predicate IsLifecycleCommand(c: Command)
  {
    c.SetContent? || c.Prepare? || c.Stop? || c.ReleaseEngine? || c.CorrectedRouteChange?
  }

  predicate IsCallback(c: Command)
  {
    c.RenderersBuilt? || c.RenderersFailed? || c.PlayerFailed? || c.PlayerStateChanged? || c.FormatChanged?
    || c.SurfaceAvailable? || c.SurfaceDestroyed? || c.BlockingClear? || c.CorrectedSurfaceDestroyed?
    || c.EngineProgressed?
  }

  /** Creating, preparing, stopping, releasing and rebuilding the engine keep
      the adapter and the builder in step with it. */
  lemma LifecycleCommandPreservesWired(s: Session, c: Command)
    requires Wired(s) && !Crashes(s, c) && IsLifecycleCommand(c)
    ensures Wired(Step(s, c).value)
    ensures s.log <= Step(s, c).value.log
  {
    match c
    case SetContent(uri) =>
      assert SetContentUri(s, uri) == PreparePlayer(s.(engine := s.engine.(contentUri := Some(uri))), true);
    case CorrectedRouteChange =>
      if s.engine.player.Some? {
        var prepared := PreparePlayer(StopPlayback(s), s.engine.player.value.playWhenReady);
        assert Wired(prepared);
      }
    case _ =>
  }

  /** Builder, engine and surface callbacks never replace the engine. */
  lemma CallbackPreservesWired(s: Session, c: Command)
    requires Wired(s) && !Crashes(s, c) && IsCallback(c)
    ensures Step(s, c).value.engine.player.Some? == s.engine.player.Some?
    ensures Step(s, c).value.engine.hasControl == s.engine.hasControl
    ensures Step(s, c).value.engine.builder.Some? == s.engine.builder.Some?
    ensures s.log <= Step(s, c).value.log
  {
  }

  /** A run of commands: None as soon as one crashes. */
  function Run(s: Session, cs: seq<Command>): (r: Option<Session>)
    requires Wired(s)
    ensures r.Some? ==> Wired(r.value) && s.log <= r.value.log
    decreases |cs|
  {
    if cs == [] then Some(s)
    else if Crashes(s, cs[0]) then None
    else
      StepPreservesWired(s, cs[0]);
      Run(Step(s, cs[0]).value, cs[1..])
  }

  /** A prefix of a run that starts with a safe command is that command
      followed by the shorter prefix of the rest. */
  lemma RunPrefixAfterFirst(s: Session, cs: seq<Command>, k: nat)
    requires Wired(s) && 0 <= k < |cs| - 1 && !Crashes(s, cs[0])
    ensures Run(s, cs[..k + 1]) == Run(Step(s, cs[0]).value, cs[1..][..k])
  {
    assert cs[..k + 1][0] == cs[0];
    assert cs[..k + 1][1..] == cs[1..][..k];
  }

  /** A run crashes exactly when some command in it meets a null engine in
      the state the earlier commands left. */
  lemma {:induction false} RunCrashesAtFirstNullEngine(s: Session, cs: seq<Command>)
    requires Wired(s)
    ensures Run(s, cs).None? <==>
      exists k :: 0 <= k < |cs| && Run(s, cs[..k]).Some? && Crashes(Run(s, cs[..k]).value, cs[k])
    decreases |cs|
  {
    if cs == [] {
    } else if Crashes(s, cs[0]) {
      assert cs[..0] == [];
      assert Run(s, cs[..0]) == Some(s);
    } else {
      StepPreservesWired(s, cs[0]);
      var next := Step(s, cs[0]).value;
      RunCrashesAtFirstNullEngine(next, cs[1..]);
      forall k | 0 <= k < |cs[1..]|
        ensures Run(s, cs[..k + 1]) == Run(next, cs[1..][..k])
      {
        RunPrefixAfterFirst(s, cs, k);
      }
      if Run(s, cs).None? {
        var k :| 0 <= k < |cs[1..]| && Run(next, cs[1..][..k]).Some? && Crashes(Run(next, cs[1..][..k]).value, cs[1..][k]);
        assert cs[k + 1] == cs[1..][k];
      } else {
        forall k | 0 <= k < |cs| && Run(s, cs[..k]).Some?
          ensures !Crashes(Run(s, cs[..k]).value, cs[k])
        {
          if k == 0 {
            assert cs[..0] == [];
          } else {
            assert cs[k] == cs[1..][k - 1];
          }
        }
      }
    }
  }

  /** The view starts wired, and no run of commands unwires it. */
  lemma InitialSessionIsWired()
    ensures Wired(InitialSession)
    ensures forall cs :: Run(InitialSession, cs).Some? ==> Wired(Run(InitialSession, cs).value)
  {
  }

  /** While wired, the MediaController commands, the surface callbacks, the
      listener registration, stopping, preparing, setting content, engine
      errors, format changes and the corrected route change never crash,
      whatever the engine's state. */
  lemma WiredViewToleratesMissingEngine(s: Session, c: Command)
    requires Wired(s)
    requires c.ControllerStart? || c.ControllerPause? || c.ControllerSeek? || c.SurfaceAvailable? || c.SurfaceDestroyed?
          || c.Stop? || c.Prepare? || c.SetContent? || c.PlayerFailed?
          || c.Subscribe? || c.Unsubscribe? || c.FormatChanged? || c.CaptionListener?
          || c.InternalErrorListener? || c.InfoListener? || c.CorrectedRouteChange? || c.CorrectedSurfaceDestroyed?
          || c.EngineProgressed?
    ensures Step(s, c).Some?
  {
  }

  /** Once stopped, only entry points that recreate the engine are safe for
      engine commands: seeking the engine directly crashes, while seeking
      through the MediaController is silently ignored. */
  lemma StoppedViewSeeks(s: Session, positionMs: int)
    requires Wired(s)
    ensures Step(StopPlayback(s), Seek(positionMs)).None?
    ensures Step(StopPlayback(s), ControllerSeek(positionMs)) == Some(StopPlayback(s))
  {
  }

  /** The route-change command crashes exactly as the handler as written does,
      statement by statement. */
  lemma RouteChangeCrashesAsWritten(s: Session)
    requires Wired(s)
    ensures Crashes(s, AudioCapabilitiesChanged) == AudioRoute.Exec(s, AudioRoute.HandlerAsWritten).Failure?
  {
    AudioRoute.HandlerAsWrittenAlwaysCrashes(s);
  }

  /** stopPlayback keeps the video renderer but drops the engine, so the
      public blockingClearSurface crashes on a stopped view that had built
      its renderers. */
  lemma StoppedViewCannotClearSurface(s: Session)
    requires Wired(s) && s.build.videoRenderer.Some?
    ensures Step(StopPlayback(s), BlockingClear).None?
  {
  }

  /** getPlaybackState reads the engine unless renderers are being built, so
      asking a stopped view for its state crashes; the query fails exactly
      where GetPlaybackState's precondition does not hold. */
  lemma StoppedViewCannotReportState(s: Session)
    requires Wired(s) && s.engine.player.Some?
    ensures Step(StopPlayback(s), QueryPlaybackState).None?
  {
  }

  /** The playback-state query fails exactly where GetPlaybackState's
      precondition does not hold: no engine while renderers are not being
      built. */
  lemma PlaybackStateQueryCrashesOutsidePrecondition(s: Session)
    ensures Crashes(s, QueryPlaybackState) <==> !(s.build.state != Building ==> s.engine.player.Some?)
  {
  }

  /** A view that was prepared and has since made progress answers the
      engine's position through the MediaController. */
  lemma ProgressIsVisibleAfterPrepare(playWhenReady: bool, readings: ControlReadings)
    ensures var r := Run(InitialSession, [Prepare(playWhenReady), EngineProgressed(readings)]);
      r.Some? && GetCurrentPosition(r.value) == readings.position && IsPlaying(r.value) == readings.playing
  {
    var cs := [Prepare(playWhenReady), EngineProgressed(readings)];
    var prepared := PrepareFromScratch(playWhenReady);
    var progressed := ProgressOnEngine(prepared, readings);
    assert cs[1..] == [EngineProgressed(readings)] && cs[1..][1..] == [];
    assert Run(InitialSession, cs) == Run(prepared, cs[1..]);
    assert Run(prepared, cs[1..]) == Run(progressed, cs[1..][1..]);
  }

  /** Preparing a new view succeeds and creates the engine and its adapter. */
  lemma PrepareFromScratch(playWhenReady: bool) returns (r: Session)
    ensures Step(InitialSession, Prepare(playWhenReady)) == Some(r)
    ensures Wired(r) && r.engine.player.Some? && r.engine.hasControl
  {
    r := PreparePlayer(InitialSession, playWhenReady);
    StepPreservesWired(InitialSession, Prepare(playWhenReady));
  }

  /** Engine progress on a view with an engine succeeds and is what the
      adapter answers from then on. */
  lemma ProgressOnEngine(s: Session, readings: ControlReadings) returns (r: Session)
    requires Wired(s) && s.engine.player.Some?
    ensures Step(s, EngineProgressed(readings)) == Some(r)
    ensures Wired(r) && GetCurrentPosition(r) == readings.position && IsPlaying(r) == readings.playing
  {
    r := OnEngineProgress(s, readings);
  }
}

=== FILE: properties.dfy ===
/** Properties of the playback session that relate several operations, or
    one operation and an independent description of what it should do. */
module SessionProperties {
  import opened Wrappers
  import opened Tracks
  import opened Events
  import opened Session

  // ---------------------------------------------------------------------
  // Reported state

  /** The view reports IDLE exactly when no renderers are being built or
      installed and the engine itself is idle; whenever it reports something
      other than the engine's own state, it reports PREPARING. */
  lemma ReportedStateAgreesWithEngine(s: Session)
    requires s.engine.player.Some?
    ensures GetPlaybackState(s) == Idle <==> s.build.state == BuildIdle && s.engine.player.value.state == Idle
    ensures GetPlaybackState(s) != s.engine.player.value.state ==> GetPlaybackState(s) == Preparing
    ensures s.build.state != BuildIdle ==> GetPlaybackState(s) != Idle
  {
  }

  /** Reporting twice with nothing in between emits once: the second call
      finds the pair already reported and changes nothing. */
  lemma ReportTwiceEmitsOnce(s: Session)
    requires s.engine.player.Some?
    ensures MaybeReportPlayerState(MaybeReportPlayerState(s)) == MaybeReportPlayerState(s)
    ensures |MaybeReportPlayerState(MaybeReportPlayerState(s)).log| - |s.log|
            == if s.lastReport != CurrentReport(s) then |s.observers.listeners| else 0
  {
    var once := MaybeReportPlayerState(s);
    assert CurrentReport(once) == CurrentReport(s);
  }

  // ---------------------------------------------------------------------
  // Preparation

  /** Preparing a session that has no engine creates one with a builder for
      the current content, disables text, and starts a build: the builder is
      cancelled (the engine is never stopped), listeners hear
      (false, PREPARING), and a build is requested. */
  lemma PrepareWithoutEngine(s: Session, playWhenReady: bool)
    requires s.engine.player.None?
    ensures var r := PreparePlayer(s, playWhenReady);
      && r.engine.builder == Some(Builder(s.engine.contentUri))
      && r.engine.player == Some(CreatedPlayer.(playWhenReady := playWhenReady))
      && r.engine.player.value.selected[TypeText] == TrackDisabled
      && r.build.state == Building && r.build.videoRenderer.None? && !r.build.needsPrepare
      && r.lastReport == Report(false, Preparing)
      && r.log == s.log + [BuilderCancelled] + FanOut(s.observers.listeners, StateChanged(false, Preparing))
                        + [BuildRequested(s.engine.contentUri)]
  {
    var created := CreatePlayer(s);
    assert CurrentReport(created.(build := created.build.(state := Building))) == Report(false, Preparing);
  }

  /** With an engine and a pending preparation, preparing rebuilds: the
      renderers and video format are forgotten, the view enters BUILDING and
      reports (play-when-ready, PREPARING); the builder and track selections
      are kept. */
  lemma PrepareWhenPending(s: Session, playWhenReady: bool)
    requires s.engine.player.Some? && s.engine.builder.Some? && s.build.needsPrepare
    ensures var r := PreparePlayer(s, playWhenReady);
      && r.build.state == Building && r.build.videoRenderer.None? && r.build.videoFormat.None?
      && r.engine.builder == s.engine.builder
      && r.engine.player.value.selected == s.engine.player.value.selected
      && r.lastReport == Report(s.engine.player.value.playWhenReady, Preparing)
  {
  }

  /** The effects of a rebuild: the engine is stopped only if renderers had
      been built, the builder is cancelled, the state is reported, and a
      build is requested from the existing builder. */
  lemma RebuildEffectsInOrder(s: Session)
    requires s.engine.player.Some? && s.engine.builder.Some?
    ensures RebuildRenderers(s).log == s.log + RebuildEffects(s,
      ReportEffects(s.observers.listeners, s.lastReport, Report(s.engine.player.value.playWhenReady, Preparing)))
  {
    var stop: seq<Effect> := if s.build.state == Built then [PlayerStopped] else [];
    var stopped := if s.build.state == Built then Emit(s, [PlayerStopped]) else s;
    assert stopped.log == s.log + stop;
    var cancelled := Emit(stopped, [BuilderCancelled])
      .(build := s.build.(videoFormat := None, videoRenderer := None, state := Building));
    assert CurrentReport(cancelled) == Report(s.engine.player.value.playWhenReady, Preparing);
    var reported := MaybeReportPlayerState(cancelled);
    var report := ReportEffects(s.observers.listeners, s.lastReport, Report(s.engine.player.value.playWhenReady, Preparing));
    assert reported.log == s.log + stop + [BuilderCancelled] + report;
    var request := [BuildRequested(s.engine.builder.value.source)];
    assert RebuildRenderers(s).log == s.log + stop + [BuilderCancelled] + report + request;
    ConcatAssociates(s.log, stop, [BuilderCancelled], report, request);
  }

  lemma ConcatAssociates<T>(a: seq<T>, b: seq<T>, c: seq<T>, d: seq<T>, e: seq<T>)
    ensures a + b + c + d + e == a + (b + c + d + e)
  {
  }

  /** A pending preparation has exactly the effects of the rebuild. */
  lemma PrepareWhenPendingEffects(s: Session, playWhenReady: bool)
    requires s.engine.player.Some? && s.engine.builder.Some? && s.build.needsPrepare
    ensures PreparePlayer(s, playWhenReady).log == s.log + RebuildEffects(s,
      ReportEffects(s.observers.listeners, s.lastReport, Report(s.engine.player.value.playWhenReady, Preparing)))
  {
    RebuildEffectsInOrder(s);
    assert PushSurface(RebuildRenderers(s), false) == RebuildRenderers(s);
  }

  /** The engine is stopped during preparation exactly when a preparation is
      pending on an engine whose renderers were built. */
  lemma PrepareStopsOnlyBuiltEngine(s: Session, playWhenReady: bool)
    requires EngineHasBuilder(s)
    ensures var r := PreparePlayer(s, playWhenReady);
      PlayerStopped in r.log[|s.log|..] <==>
        s.engine.player.Some? && s.build.needsPrepare && s.build.state == Built
  {
    if s.engine.player.None? {
      NewEngineIsNotStopped(s, playWhenReady);
    } else if s.build.needsPrepare {
      PendingPrepareStopsBuiltEngine(s, playWhenReady);
    } else {
      PrepareWhenAlreadyPrepared(s, playWhenReady);
      assert PreparePlayer(s, playWhenReady).log[|s.log|..] == PushSurface(s, false).log[|s.log|..];
    }
  }

  lemma NewEngineIsNotStopped(s: Session, playWhenReady: bool)
    requires s.engine.player.None?
    ensures PlayerStopped !in PreparePlayer(s, playWhenReady).log[|s.log|..]
  {
    PrepareWithoutEngine(s, playWhenReady);
    var report := FanOut(s.observers.listeners, StateChanged(false, Preparing));
    assert PreparePlayer(s, playWhenReady).log[|s.log|..]
        == [BuilderCancelled] + report + [BuildRequested(s.engine.contentUri)];
    if PlayerStopped in report {
      FanOutOnlyDelivers(s.observers.listeners, StateChanged(false, Preparing), PlayerStopped);
    }
  }

  lemma PendingPrepareStopsBuiltEngine(s: Session, playWhenReady: bool)
    requires s.engine.player.Some? && s.engine.builder.Some? && s.build.needsPrepare
    ensures PlayerStopped in PreparePlayer(s, playWhenReady).log[|s.log|..] <==> s.build.state == Built
  {
    PrepareWhenPendingEffects(s, playWhenReady);
    var report := ReportEffects(s.observers.listeners, s.lastReport, Report(s.engine.player.value.playWhenReady, Preparing));
    assert PreparePlayer(s, playWhenReady).log[|s.log|..] == RebuildEffects(s, report);
    if s.build.state != Built && PlayerStopped in report {
      FanOutOnlyDelivers(s.observers.listeners, StateChanged(s.engine.player.value.playWhenReady, Preparing), PlayerStopped);
    }
  }

  /** Without a pending preparation, preparing an existing engine only pushes
      the surface and sets play-when-ready: renderers, build state and the
      last report are untouched. */
  lemma PrepareWhenAlreadyPrepared(s: Session, playWhenReady: bool)
    requires s.engine.player.Some? && s.engine.builder.Some? && !s.build.needsPrepare
    ensures var r := PreparePlayer(s, playWhenReady);
      && r.build == s.build && r.lastReport == s.lastReport
      && r.engine == s.engine.(player := Some(s.engine.player.value.(playWhenReady := playWhenReady)))
      && r.log == PushSurface(s, false).log
  {
  }

  /** setContentUri on a live engine keeps the old builder: the new content
      only takes effect once the engine has been stopped first. */
  lemma NewContentNeedsStoppedEngine(s: Session, uri: Uri)
    requires s.engine.player.Some? && s.engine.builder.Some?
    ensures SetContentUri(s, uri).engine.builder == s.engine.builder
    ensures SetContentUri(StopPlayback(s), uri).engine.builder == Some(Builder(Some(uri)))
  {
  }

  // ---------------------------------------------------------------------
  // Failure and recovery

  /** After a player error, the next preparation rebuilds from scratch: it
      requests a new build and ends BUILDING, whatever state it failed in. */
  lemma ErrorThenPrepareRebuilds(s: Session, e: ErrorValue, playWhenReady: bool)
    requires s.engine.player.Some? && s.engine.builder.Some?
    ensures var r := PreparePlayer(OnPlayerError(s, e), playWhenReady);
      && r.build.state == Building && r.build.videoRenderer.None?
      && r.log[|r.log| - 1] == BuildRequested(s.engine.builder.value.source)
  {
    var failed := OnPlayerError(s, e);
    PrepareWhenPending(failed, playWhenReady);
  }

  /** A renderer build failure tells every listener of the error exactly
      as often as it is registered, before the state is re-reported. */
  lemma BuildErrorTellsEachListener(s: Session, e: ErrorValue, l: ListenerId)
    requires s.engine.player.Some?
    ensures s.log + BuildErrorEffects(s, e) <= OnRenderersError(s, e).log
    ensures multiset(BuildErrorEffects(s, e))[Delivered(l, Error(e))] == multiset(s.observers.listeners)[l]
  {
    FanOutDeliversOncePerRegistration(s.observers.listeners, Error(e), l);
    var pre := if s.observers.hasInternalErrorListener then [RendererInitializationError(e)] else [];
    assert multiset(BuildErrorEffects(s, e)) == multiset(pre) + multiset(FanOut(s.observers.listeners, Error(e)));
  }

  /** After a renderer build failure the next preparation rebuilds. */
  lemma BuildErrorThenPrepareRebuilds(s: Session, e: ErrorValue, playWhenReady: bool)
    requires s.engine.player.Some? && s.engine.builder.Some?
    ensures PreparePlayer(OnRenderersError(s, e), playWhenReady).build.state == Building
  {
    PrepareWhenPending(OnRenderersError(s, e), playWhenReady);
  }

  // ---------------------------------------------------------------------
  // Teardown

  /** While the adapter exists, every MediaController query answers what the
      engine last reported, so playback progress is visible through it. */
  lemma ControllerReadsEngine(s: Session, readings: ControlReadings)
    requires Wired(s) && s.engine.player.Some?
    ensures var r := OnEngineProgress(s, readings);
      && GetDuration(r) == readings.duration
      && GetCurrentPosition(r) == readings.position
      && IsPlaying(r) == readings.playing
      && GetBufferPercentage(r) == readings.bufferPercentage
      && CanPause(r) == readings.canPause
      && CanSeekBackward(r) == readings.canSeekBackward
      && CanSeekForward(r) == readings.canSeekForward
      && GetAudioSessionId(r) == readings.audioSessionId
  {
  }

  /** Once stopped, the MediaController queries answer 0 or false and its
      commands do nothing. */
  lemma StoppedSessionAnswersNothing(s: Session, positionMs: int)
    requires Wired(s)
    ensures var r := StopPlayback(s);
      && GetDuration(r) == 0 && GetCurrentPosition(r) == 0 && GetBufferPercentage(r) == 0
      && GetAudioSessionId(r) == 0
      && !IsPlaying(r) && !CanPause(r) && !CanSeekBackward(r) && !CanSeekForward(r)
      && Start(r) == r && Pause(r) == r && ControlSeekTo(r, positionMs) == r
  {
  }

  /** release tells no listener anything, and releasing again repeats only
      the two commands to the builder and the engine. */
  lemma ReleaseTwice(s: Session)
    requires s.engine.player.Some? && s.engine.builder.Some?
    ensures forall e :: e in Release(s).log[|s.log|..] ==> !e.Delivered?
    ensures Release(Release(s)).(log := Release(s).log) == Release(s)
    ensures Release(Release(s)).log == Release(s).log + [BuilderCancelled, PlayerReleased]
  {
    assert Release(s).log[|s.log|..] == [BuilderCancelled, PlayerReleased];
  }

  /** release does not end the session: the engine reference survives, and
      preparing afterwards neither creates a new engine nor rebuilds unless
      a preparation was already pending; it only sets play-when-ready on the
      released engine. */
  lemma PrepareAfterReleaseReusesEngine(s: Session, playWhenReady: bool)
    requires s.engine.player.Some? && s.engine.builder.Some? && !s.build.needsPrepare
    ensures var r := PreparePlayer(Release(s), playWhenReady);
      && r.build.state == BuildIdle
      && r.engine.builder == s.engine.builder
      && r.engine.player == Some(s.engine.player.value.(playWhenReady := playWhenReady))
      && BuildRequested(s.engine.builder.value.source) !in r.log[|Release(s).log|..]
  {
    var released := Release(s);
    PrepareWhenAlreadyPrepared(released, playWhenReady);
    var r := PreparePlayer(released, playWhenReady);
    if s.build.videoRenderer.Some? {
      assert r.log[|released.log|..] == [SurfaceSent(s.build.videoRenderer.value, s.display.surface, false)];
    } else {
      assert r.log[|released.log|..] == [];
    }
  }

  // ---------------------------------------------------------------------
  // Background handling and gated forwarding

  /** Backgrounding then foregrounding restores exactly the video selection
      that was current before, and leaves every other engine field alone. */
  lemma BackgroundRoundTrip(s: Session)
    requires s.engine.player.Some? && !s.display.backgrounded
    ensures var r := SetBackgrounded(SetBackgrounded(s, true), false);
      && r.engine == s.engine
      && !r.display.backgrounded
      && r.display.videoTrackToRestore == s.engine.player.value.selected[TypeVideo]
  {
    var bg := SetBackgrounded(s, true);
    var r := SetBackgrounded(bg, false);
    var sel := s.engine.player.value.selected;
    assert r.engine.player.value.selected == sel[TypeVideo := TrackDisabled][TypeVideo := sel[TypeVideo]];
    assert r.engine.player.value.selected == sel;
  }

  /** While backgrounded the video track is disabled; setting the same flag
      again changes nothing. */
  lemma BackgroundedDisablesVideo(s: Session)
    requires s.engine.player.Some?
    ensures !s.display.backgrounded ==> GetSelectedTrack(SetBackgrounded(s, true), TypeVideo) == TrackDisabled
    ensures SetBackgrounded(SetBackgrounded(s, true), true) == SetBackgrounded(s, true)
  {
  }

  /** With text disabled, cues reach nobody; with text selected, they reach
      the caption listener. */
  lemma CuesFollowTextSelection(s: Session, index: int, cues: seq<Cue>)
    requires s.engine.player.Some?
    ensures OnCues(SetSelectedTrack(s, TypeText, TrackDisabled), cues) == SetSelectedTrack(s, TypeText, TrackDisabled)
    ensures index >= 0 && s.observers.hasCaptionListener ==>
      OnCues(SetSelectedTrack(s, TypeText, index), cues).log == s.log + [CuesDelivered(cues)]
  {
  }

  /** Metadata reaches the ID3 listener exactly while the metadata track is
      selected: disabling it silences the listener, any other index lets the
      metadata through. */
  lemma MetadataFollowsSelection(s: Session, index: int, metadata: Metadata)
    requires s.engine.player.Some?
    ensures var selected := SetSelectedTrack(s, TypeMetadata, index);
      && (index == TrackDisabled ==> OnMetadata(selected, metadata) == selected)
      && (index != TrackDisabled ==> OnMetadata(selected, metadata).log == s.log + [Id3Delivered(metadata)])
  {
  }

  /** getSelectedTrack reads back what setSelectedTrack wrote, and selecting
      one category leaves every other category's selection as it was. */
  lemma SelectThenGet(s: Session, t: TrackType, index: int, u: TrackType)
    requires s.engine.player.Some?
    ensures GetSelectedTrack(SetSelectedTrack(s, t, index), t) == index
    ensures u != t ==> GetSelectedTrack(SetSelectedTrack(s, t, index), u) == GetSelectedTrack(s, u)
  {
  }

  /** A freshly prepared engine has text disabled, so cues are dropped until
      a text track is selected. */
  lemma FreshEngineDropsCues(s: Session, playWhenReady: bool, cues: seq<Cue>)
    requires s.engine.player.None?
    ensures var r := PreparePlayer(s, playWhenReady); OnCues(r, cues) == r
  {
    PrepareWithoutEngine(s, playWhenReady);
  }

  // ---------------------------------------------------------------------
  // Installing renderers

  /** Once renderers are installed the view reports PREPARING while the
      engine is still idle and the engine's state afterwards; every present
      unit is handed to the engine in its slot, absent ones as placeholders. */
  lemma RenderersInstalled(s: Session, renderers: seq<Option<Renderer>>, meter: Option<BandwidthMeter>)
    requires s.engine.player.Some? && |renderers| == RendererCount
    ensures var r := OnRenderers(s, renderers, meter);
      && GetPlaybackState(r) == (if s.engine.player.value.state == Idle then Preparing else s.engine.player.value.state)
      && r.log[|r.log| - 1].PlayerPrepared?
      && (forall t: TrackType :: renderers[t].Some? ==> r.log[|r.log| - 1].renderers[t] == renderers[t].value)
      && (forall t: TrackType :: renderers[t].None? ==> r.log[|r.log| - 1].renderers[t] == Dummy)
      && r.build.videoRenderer == Some(r.log[|r.log| - 1].renderers[TypeVideo])
  {
  }

  // ---------------------------------------------------------------------
  // Listener registration

  /** Registering a listener that was not registered and removing it again
      restores the session. */
  lemma ListenerRegistrationRoundTrip(s: Session, l: ListenerId)
    requires l !in s.observers.listeners
    ensures RemoveSessionListener(AddSessionListener(s, l), l) == s
  {
    RemoveUndoesAdd(s.observers.listeners, l);
  }

  /** A state change reaches each listener once per registration, and
      nothing else is emitted. */
  lemma ReportReachesEveryListener(s: Session, l: ListenerId)
    requires s.engine.player.Some? && s.lastReport != CurrentReport(s)
    ensures var added := MaybeReportPlayerState(s).log[|s.log|..];
      && multiset(added)[Delivered(l, StateChanged(CurrentReport(s).playWhenReady, CurrentReport(s).state))]
         == multiset(s.observers.listeners)[l]
      && |added| == |s.observers.listeners|
  {
    var payload := StateChanged(CurrentReport(s).playWhenReady, CurrentReport(s).state);
    assert MaybeReportPlayerState(s).log[|s.log|..] == FanOut(s.observers.listeners, payload);
    FanOutDeliversOncePerRegistration(s.observers.listeners, payload, l);
  }
}

=== FILE: session.dfy ===
/** The playback-session state machine of `ExoVideoView`: an immutable record
    of the view's fields and one pure function per operation. Each function
    returns the next session; everything the view does that can be observed
    (listener callbacks, commands to the engine and the renderer builder) is
    appended to the session's `log`. The ExoPlayer engine is an abstract
    `Player` value held as `Option<Player>`: `None` is a null `mMediaPlayer`,
    and every operation that dereferences it requires `Some`. */
module Session {
  import opened Wrappers
  import opened Tracks
  import opened Events

  /** RENDERER_BUILDING_STATE_IDLE / _BUILDING / _BUILT (ExoVideoView.java:83-85). */
  datatype BuildingState = BuildIdle | Building | Built

  /** What the engine's MediaController adapter answers when asked; the
      adapter's own arithmetic belongs to the engine and is opaque here. */
  datatype ControlReadings = ControlReadings(
    duration: int,
    position: int,
    playing: bool,
    bufferPercentage: int,
    canPause: bool,
    canSeekBackward: bool,
    canSeekForward: bool,
    audioSessionId: int)

  /** The engine as the view sees it: its own playback state, the
      play-when-ready flag, the per-category selected track and the adapter's
      readings. */
  datatype Player = Player(
    state: PlaybackState,
    playWhenReady: bool,
    selected: Selections,
    readings: ControlReadings)

  /** A new engine instance: idle, not playing, default track everywhere. */
  const FreshPlayer: Player := Player(
    Idle, false,
    [TrackDefault, TrackDefault, TrackDefault, TrackDefault],
    ControlReadings(0, 0, false, 0, true, true, true, 0))

  /** A renderer builder, remembered by the content it was created for. */
  datatype Builder = Builder(source: Option<Uri>)

  /** The content, the renderer builder, the engine and whether the
      MediaController adapter exists (mContentUri, mRendererBuilder,
      mMediaPlayer, mPlayerControl). */
  datatype Engine = Engine(
    contentUri: Option<Uri>,
    builder: Option<Builder>,
    player: Option<Player>,
    hasControl: bool)

  /** Renderer construction: rendererBuildingState, playerNeedsPrepare and
      what a successful build installed (mVideoRenderer, mCodecCounters,
      mBandwidthMeter, mVideoFormat). */
  datatype Build = Build(
    state: BuildingState,
    needsPrepare: bool,
    videoRenderer: Option<Renderer>,
    codecCounters: Option<Renderer>,
    bandwidthMeter: Option<BandwidthMeter>,
    videoFormat: Option<Format>)

  /** The last (playWhenReady, state) pair told to the listeners. */
  datatype Report = Report(playWhenReady: bool, state: PlaybackState)

  /** The render target and background handling (mSurface, backgrounded,
      videoTrackToRestore). */
  datatype Display = Display(
    surface: Option<SurfaceId>,
    backgrounded: bool,
    videoTrackToRestore: int)

  /** The core listeners, and whether a caption, internal-error and info
      listener is set. */
  datatype Observers = Observers(
    listeners: seq<ListenerId>,
    hasCaptionListener: bool,
    hasInternalErrorListener: bool,
    hasInfoListener: bool)

  datatype Session = Session(
    engine: Engine,
    build: Build,
    lastReport: Report,
    display: Display,
    observers: Observers,
    log: seq<Effect>)

  /** A freshly constructed view: no content, no engine, no listeners. The
      Java fields start zeroed; before the first preparation none of them is
      read, so the zero building state and zero reported state are modelled
      as the idle values. */
  const InitialSession: Session := Session(
    Engine(None, None, None, false),
    Build(BuildIdle, false, None, None, None, None),
    Report(false, Idle),
    Display(None, false, 0),
    Observers([], false, false, false),
    [])

  /** The object-graph invariant of the view: the MediaController adapter
      exists exactly when the engine does, and so does a renderer builder. */
  predicate Wired(s: Session)
  {
    && (s.engine.player.Some? <==> s.engine.hasControl)
    && EngineHasBuilder(s)
  }

  /** Every engine comes with a renderer builder: what stopping and preparing
      rely on. */
  predicate EngineHasBuilder(s: Session)
  {
    s.engine.player.Some? ==> s.engine.builder.Some?
  }

  function Emit(s: Session, effects: seq<Effect>): Session
  {
    s.(log := s.log + effects)
  }

  function WithPlayer(s: Session, p: Player): Session
  {
    s.(engine := s.engine.(player := Some(p)))
  }

  function WithBuildState(s: Session, state: BuildingState): Session
  {
    s.(build := s.build.(state := state))
  }

  // ---------------------------------------------------------------------
  // Listener fan-out: the private `mListener` (ExoVideoView.java:346-368)

  /** `mListener.onStateChanged`: every registered listener is told the pair. */
  function NotifyStateChanged(s: Session, playWhenReady: bool, state: PlaybackState): (r: Session)
    ensures r.log == s.log + FanOut(s.observers.listeners, StateChanged(playWhenReady, state))
    ensures r.(log := s.log) == s
  {
    Emit(s, FanOut(s.observers.listeners, StateChanged(playWhenReady, state)))
  }

  /** `mListener.onError`: every registered listener is told the error, then
      the session is marked as needing a fresh preparation. */
  function NotifyError(s: Session, e: ErrorValue): (r: Session)
    ensures r.log == s.log + FanOut(s.observers.listeners, Error(e))
    ensures r.build == s.build.(needsPrepare := true)
    ensures r.engine == s.engine && r.lastReport == s.lastReport
    ensures r.display == s.display && r.observers == s.observers
  {
    Emit(s, FanOut(s.observers.listeners, Error(e))).(build := s.build.(needsPrepare := true))
  }

  // ---------------------------------------------------------------------
  // Reported state (ExoVideoView.java:449-470)

  /** getPlaybackState: while renderers are being built the view reports
      PREPARING whatever the engine says; once they are built but the engine
      is still idle it also reports PREPARING; otherwise the engine's state. */
  function GetPlaybackState(s: Session): (r: PlaybackState)
    requires s.build.state != Building ==> s.engine.player.Some?
    ensures s.build.state == Building ==> r == Preparing
    ensures s.build.state == Built && s.engine.player.value.state == Idle ==> r == Preparing
    ensures s.build.state == Built && s.engine.player.value.state != Idle ==> r == s.engine.player.value.state
    ensures s.build.state == BuildIdle ==> r == s.engine.player.value.state
  {
    if s.build.state == Building then Preparing
    else
      var playerState := s.engine.player.value.state;
      if s.build.state == Built && playerState == Idle then Preparing
      else playerState
  }

  /** The pair the view would report now. */
  function CurrentReport(s: Session): Report
    requires s.engine.player.Some?
  {
    Report(s.engine.player.value.playWhenReady, GetPlaybackState(s))
  }

  /** What the listeners are told when the reported pair moves from `last`
      to `now`: nothing if it has not changed. */
  function ReportEffects(listeners: seq<ListenerId>, last: Report, now: Report): seq<Effect>
  {
    if last != now then FanOut(listeners, StateChanged(now.playWhenReady, now.state)) else []
  }

  /** maybeReportPlayerState: one `onStateChanged` fan-out when the current
      pair differs from the last one reported, nothing otherwise; afterwards
      the last reported pair is the current one. */
  function MaybeReportPlayerState(s: Session): (r: Session)
    requires s.engine.player.Some?
    ensures r.lastReport == CurrentReport(s)
    ensures s.lastReport != CurrentReport(s) ==>
      r.log == s.log + FanOut(s.observers.listeners,
                              StateChanged(CurrentReport(s).playWhenReady, CurrentReport(s).state))
    ensures s.lastReport == CurrentReport(s) ==> r == s
    ensures r.log == s.log + ReportEffects(s.observers.listeners, s.lastReport, CurrentReport(s))
    ensures r.engine == s.engine && r.build == s.build
    ensures r.display == s.display && r.observers == s.observers
  {
    var playWhenReady := s.engine.player.value.playWhenReady;
    var playbackState := GetPlaybackState(s);
    if s.lastReport.playWhenReady != playWhenReady || s.lastReport.state != playbackState then
      NotifyStateChanged(s, playWhenReady, playbackState).(lastReport := Report(playWhenReady, playbackState))
    else s
  }

  // ---------------------------------------------------------------------
  // Surface binding (ExoVideoView.java:375-410, 437-447)

  /** pushSurface: nothing without a video renderer; otherwise the current
      surface is sent to it, blocking or not. */
  function PushSurface(s: Session, blocking: bool): (r: Session)
    requires s.build.videoRenderer.Some? ==> s.engine.player.Some?
    ensures s.build.videoRenderer.None? ==> r == s
    ensures s.build.videoRenderer.Some? ==>
      r.log == s.log + [SurfaceSent(s.build.videoRenderer.value, s.display.surface, blocking)]
    ensures r.(log := s.log) == s
  {
    if s.build.videoRenderer.None? then s
    else Emit(s, [SurfaceSent(s.build.videoRenderer.value, s.display.surface, blocking)])
  }

  /** blockingClearSurface: a blocking push of the current surface. */
  function BlockingClearSurface(s: Session): (r: Session)
    requires s.build.videoRenderer.Some? ==> s.engine.player.Some?
    ensures s.build.videoRenderer.None? ==> r == s
    ensures s.build.videoRenderer.Some? ==>
      r.log == s.log + [SurfaceSent(s.build.videoRenderer.value, s.display.surface, true)]
    ensures r.(log := s.log) == s
  {
    PushSurface(s, true)
  }

  /** onSurfaceTextureAvailable: the new surface is recorded and, when an
      engine exists, pushed without blocking. */
  function OnSurfaceTextureAvailable(s: Session, surface: SurfaceId): (r: Session)
    ensures r.display == s.display.(surface := Some(surface))
    ensures s.engine.player.Some? && s.build.videoRenderer.Some? ==>
      r.log == s.log + [SurfaceSent(s.build.videoRenderer.value, Some(surface), false)]
    ensures !(s.engine.player.Some? && s.build.videoRenderer.Some?) ==> r.log == s.log
    ensures r.engine == s.engine && r.build == s.build && r.lastReport == s.lastReport
    ensures r.observers == s.observers
  {
    var attached := s.(display := s.display.(surface := Some(surface)));
    if s.engine.player.Some? then PushSurface(attached, false) else attached
  }

  /** onSurfaceTextureDestroyed: when an engine exists the surface is pushed
      blocking, before it is dropped. */
  function OnSurfaceTextureDestroyed(s: Session): (r: Session)
    ensures r.display == s.display.(surface := None)
    ensures s.engine.player.Some? && s.build.videoRenderer.Some? ==>
      r.log == s.log + [SurfaceSent(s.build.videoRenderer.value, s.display.surface, true)]
    ensures !(s.engine.player.Some? && s.build.videoRenderer.Some?) ==> r.log == s.log
    ensures r.engine == s.engine && r.build == s.build && r.lastReport == s.lastReport
    ensures r.observers == s.observers
  {
    var pushed := if s.engine.player.Some? then PushSurface(s, true) else s;
    pushed.(display := pushed.display.(surface := None))
  }

  // ---------------------------------------------------------------------
  // Preparation and teardown (ExoVideoView.java:164-208, 553-557)

  /** The engine created by preparePlayer: fresh, with the text track off. */
  const CreatedPlayer: Player := FreshPlayer.(selected := FreshPlayer.selected[TypeText := TrackDisabled])

  /** The `mMediaPlayer == null` branch of preparePlayer: a new builder for
      the current content and a new engine with the text track disabled; the
      last reported state is reset to IDLE and a preparation is pending. */
  function CreatePlayer(s: Session): (r: Session)
    requires s.engine.player.None?
    ensures r.engine == Engine(s.engine.contentUri, Some(Builder(s.engine.contentUri)), Some(CreatedPlayer), true)
    ensures r.build.state == BuildIdle && r.build.needsPrepare
    ensures r.build == s.build.(state := BuildIdle, needsPrepare := true)
    ensures r.lastReport == Report(s.lastReport.playWhenReady, Idle)
    ensures r.display == s.display && r.observers == s.observers && r.log == s.log
  {
    s.(engine := Engine(s.engine.contentUri, Some(Builder(s.engine.contentUri)), Some(CreatedPlayer), true),
       lastReport := s.lastReport.(state := Idle),
       build := s.build.(state := BuildIdle, needsPrepare := true))
  }

  /** The effects of RebuildRenderers around the state report `report`: stop
      the engine only when renderers were built, cancel the builder, report,
      request a build. */
  function RebuildEffects(s: Session, report: seq<Effect>): seq<Effect>
    requires s.engine.builder.Some?
  {
    (if s.build.state == Built then [PlayerStopped] else [])
    + [BuilderCancelled] + report + [BuildRequested(s.engine.builder.value.source)]
  }

  /** The `playerNeedsPrepare` branch of preparePlayer: stop the engine only
      if renderers were built, cancel the builder, forget the video renderer
      and format, enter BUILDING, report, and request a new build. */
  function RebuildRenderers(s: Session): (r: Session)
    requires s.engine.player.Some? && s.engine.builder.Some?
    ensures r.build == s.build.(state := Building, needsPrepare := false, videoRenderer := None, videoFormat := None)
    ensures r.lastReport == Report(s.engine.player.value.playWhenReady, Preparing)
    ensures r.engine == s.engine && r.display == s.display && r.observers == s.observers
    ensures s.log <= r.log
  {
    var stopped := if s.build.state == Built then Emit(s, [PlayerStopped]) else s;
    var cancelled := Emit(stopped, [BuilderCancelled])
      .(build := s.build.(videoFormat := None, videoRenderer := None, state := Building));
    var reported := MaybeReportPlayerState(cancelled);
    Emit(reported, [BuildRequested(s.engine.builder.value.source)])
      .(build := reported.build.(needsPrepare := false))
  }

  /** preparePlayer: create the engine if there is none, rebuild the renderers
      if a preparation is pending, push the surface, and set play-when-ready. */
  function PreparePlayer(s: Session, playWhenReady: bool): (r: Session)
    requires EngineHasBuilder(s)
    ensures r.engine.player.Some? && r.engine.builder.Some? && s.log <= r.log
    ensures r.engine.hasControl == (s.engine.player.None? || s.engine.hasControl)
    ensures r.engine.player.value.playWhenReady == playWhenReady
    ensures !r.build.needsPrepare
    ensures r.engine.contentUri == s.engine.contentUri
    ensures r.display == s.display && r.observers == s.observers
  {
    var created := if s.engine.player.None? then CreatePlayer(s) else s;
    var rebuilt := if created.build.needsPrepare then RebuildRenderers(created) else created;
    var pushed := PushSurface(rebuilt, false);
    WithPlayer(pushed, pushed.engine.player.value.(playWhenReady := playWhenReady))
  }

  /** setContentUri: remember the content and prepare with play-when-ready. */
  function SetContentUri(s: Session, uri: Uri): (r: Session)
    requires EngineHasBuilder(s)
    ensures r.engine.contentUri == Some(uri)
    ensures r.engine.player.Some? && r.engine.player.value.playWhenReady
    ensures r.engine.builder.Some? && !r.build.needsPrepare && s.log <= r.log
    ensures r.display == s.display && r.observers == s.observers
  {
    PreparePlayer(s.(engine := s.engine.(contentUri := Some(uri))), true)
  }

  /** stopPlayback: without an engine, nothing; otherwise cancel the builder,
      go idle, release the engine and drop it together with its adapter. */
  function StopPlayback(s: Session): (r: Session)
    requires EngineHasBuilder(s)
    ensures s.engine.player.None? ==> r == s
    ensures s.engine.player.Some? ==>
      && r.engine == s.engine.(player := None, hasControl := false)
      && r.build == s.build.(state := BuildIdle)
      && r.log == s.log + [BuilderCancelled, PlayerReleased]
    ensures r.lastReport == s.lastReport && r.display == s.display && r.observers == s.observers
  {
    if s.engine.player.None? then s
    else
      Emit(s, [BuilderCancelled, PlayerReleased])
        .(build := s.build.(state := BuildIdle), engine := s.engine.(player := None, hasControl := false))
  }

  /** release: cancel the builder, go idle and release the engine. The engine
      reference itself is kept, and no listener is told anything. */
  function Release(s: Session): (r: Session)
    requires s.engine.player.Some? && s.engine.builder.Some?
    ensures r.build == s.build.(state := BuildIdle)
    ensures r.log == s.log + [BuilderCancelled, PlayerReleased]
    ensures r.engine == s.engine && r.lastReport == s.lastReport
    ensures r.display == s.display && r.observers == s.observers
  {
    Emit(s, [BuilderCancelled, PlayerReleased]).(build := s.build.(state := BuildIdle))
  }

  // ---------------------------------------------------------------------
  // Builder and engine callbacks (ExoVideoView.java:512-543, 575-592)

  /** The renderer whose codec counters the view exposes: the video renderer
      when it is MediaCodec-backed, else the audio renderer when it is, else
      none. */
  function CodecCountersOf(units: RendererSet): (r: Option<Renderer>)
    ensures r.Some? ==> r.value.CodecRenderer? && (r.value == units[TypeVideo] || r.value == units[TypeAudio])
    ensures units[TypeVideo].CodecRenderer? ==> r == Some(units[TypeVideo])
    ensures r.None? <==> !units[TypeVideo].CodecRenderer? && !units[TypeAudio].CodecRenderer?
  {
    if units[TypeVideo].CodecRenderer? then Some(units[TypeVideo])
    else if units[TypeAudio].CodecRenderer? then Some(units[TypeAudio])
    else None
  }

  /** onRenderers: fill absent slots with the placeholder, install the video
      renderer, push the surface to it, hand the set to the engine, BUILT. */
  function OnRenderers(s: Session, renderers: seq<Option<Renderer>>, meter: Option<BandwidthMeter>): (r: Session)
    requires s.engine.player.Some?
    requires |renderers| == RendererCount
    ensures r.build.state == Built && r.build.needsPrepare == s.build.needsPrepare
    ensures r.build.videoRenderer == Some(Normalise(renderers)[TypeVideo])
    ensures r.build.codecCounters == CodecCountersOf(Normalise(renderers)) && r.build.bandwidthMeter == meter
    ensures r.build == s.build.(state := Built, videoRenderer := Some(Normalise(renderers)[TypeVideo]),
                                codecCounters := CodecCountersOf(Normalise(renderers)), bandwidthMeter := meter)
    ensures r.log == s.log + [SurfaceSent(Normalise(renderers)[TypeVideo], s.display.surface, false),
                              PlayerPrepared(Normalise(renderers))]
    ensures r.engine == s.engine && r.lastReport == s.lastReport
    ensures r.display == s.display && r.observers == s.observers
  {
    var units := Normalise(renderers);
    var installed := s.(build := s.build.(videoRenderer := Some(units[TypeVideo]),
                                          codecCounters := CodecCountersOf(units), bandwidthMeter := meter));
    var pushed := PushSurface(installed, false);
    WithBuildState(Emit(pushed, [PlayerPrepared(units)]), Built)
  }

  /** Effects of a renderer build failure before the state is re-reported. */
  function BuildErrorEffects(s: Session, e: ErrorValue): seq<Effect>
  {
    (if s.observers.hasInternalErrorListener then [RendererInitializationError(e)] else [])
    + FanOut(s.observers.listeners, Error(e))
  }

  /** onRenderersError: tell the internal-error listener, fan the error out,
      go idle and report the resulting state. */
  function OnRenderersError(s: Session, e: ErrorValue): (r: Session)
    requires s.engine.player.Some?
    ensures r.build == s.build.(state := BuildIdle, needsPrepare := true)
    ensures r.log == s.log + BuildErrorEffects(s, e)
                     + ReportEffects(s.observers.listeners, s.lastReport,
                                     Report(s.engine.player.value.playWhenReady, s.engine.player.value.state))
    ensures r.lastReport == Report(s.engine.player.value.playWhenReady, s.engine.player.value.state)
    ensures r.engine == s.engine && r.display == s.display && r.observers == s.observers
  {
    var informed := if s.observers.hasInternalErrorListener then Emit(s, [RendererInitializationError(e)]) else s;
    var notified := NotifyError(informed, e);
    assert notified.log == s.log + BuildErrorEffects(s, e) by {
      assert informed.log == s.log + (if s.observers.hasInternalErrorListener then [RendererInitializationError(e)] else []);
      assert informed.observers == s.observers;
    }
    var idle := WithBuildState(notified, BuildIdle);
    assert CurrentReport(idle) == Report(s.engine.player.value.playWhenReady, s.engine.player.value.state);
    MaybeReportPlayerState(idle)
  }

  /** The engine listener's onPlayerError: go idle and fan the error out. */
  function OnPlayerError(s: Session, e: ErrorValue): (r: Session)
    ensures r.build == s.build.(state := BuildIdle, needsPrepare := true)
    ensures r.log == s.log + FanOut(s.observers.listeners, Error(e))
    ensures r.engine == s.engine && r.lastReport == s.lastReport
    ensures r.display == s.display && r.observers == s.observers
  {
    NotifyError(WithBuildState(s, BuildIdle), e)
  }

  /** The engine listener's onPlayerStateChanged. The engine's state evolution
      is opaque: the callback's arguments are taken as its new state; the view
      itself ignores them and re-reads the engine. */
  function OnPlayerStateChanged(s: Session, playWhenReady: bool, state: PlaybackState): (r: Session)
    requires s.engine.player.Some?
    ensures r.engine.player == Some(s.engine.player.value.(playWhenReady := playWhenReady, state := state))
    ensures r.lastReport.playWhenReady == playWhenReady
    ensures r.lastReport.state == if s.build.state == Building || (s.build.state == Built && state == Idle)
                                  then Preparing else state
    ensures r.log == s.log + ReportEffects(s.observers.listeners, s.lastReport,
      Report(playWhenReady, if s.build.state == Building || (s.build.state == Built && state == Idle)
                            then Preparing else state))
    ensures r.engine == s.engine.(player := r.engine.player)
    ensures r.build == s.build && r.display == s.display && r.observers == s.observers
  {
    MaybeReportPlayerState(WithPlayer(s, s.engine.player.value.(playWhenReady := playWhenReady, state := state)))
  }

  /** The engine moving on by itself: position, duration, buffering and the
      other answers its MediaController adapter gives change with playback,
      which the view neither drives nor observes. The new answers are a
      parameter; without an engine nothing moves. */
  function OnEngineProgress(s: Session, readings: ControlReadings): (r: Session)
    ensures s.engine.player.Some? ==> r.engine.player == Some(s.engine.player.value.(readings := readings))
    ensures s.engine.player.None? ==> r == s
    ensures r.engine.(player := s.engine.player) == s.engine
    ensures r.(engine := s.engine) == s
  {
    if s.engine.player.Some? then WithPlayer(s, s.engine.player.value.(readings := readings)) else s
  }

  /** onDownstreamFormatChanged: only with an info listener; a video format is
      also remembered as the current one. */
  function OnDownstreamFormatChanged(s: Session, sourceId: int, format: Format, trigger: int, mediaTimeMs: int): (r: Session)
    ensures !s.observers.hasInfoListener ==> r == s
    ensures s.observers.hasInfoListener && sourceId == TypeVideo ==>
      r.build.videoFormat == Some(format) && r.log == s.log + [VideoFormatEnabled(format, trigger, mediaTimeMs)]
    ensures s.observers.hasInfoListener && sourceId == TypeAudio ==>
      r.log == s.log + [AudioFormatEnabled(format, trigger, mediaTimeMs)]
    ensures s.observers.hasInfoListener && sourceId != TypeVideo && sourceId != TypeAudio ==> r == s
    ensures sourceId == TypeVideo && s.observers.hasInfoListener ==> r.build == s.build.(videoFormat := Some(format))
    ensures sourceId != TypeVideo ==> r.build == s.build
    ensures r.engine == s.engine && r.lastReport == s.lastReport
    ensures r.display == s.display && r.observers == s.observers
  {
    if !s.observers.hasInfoListener then s
    else if sourceId == TypeVideo then
      Emit(s.(build := s.build.(videoFormat := Some(format))), [VideoFormatEnabled(format, trigger, mediaTimeMs)])
    else if sourceId == TypeAudio then
      Emit(s, [AudioFormatEnabled(format, trigger, mediaTimeMs)])
    else s
  }

  // ---------------------------------------------------------------------
  // Track selection and gated forwarding (ExoVideoView.java:412-435, 683-695)

  /** getSelectedTrack: the engine's current selection for `t`. */
  function GetSelectedTrack(s: Session, t: TrackType): int
    requires s.engine.player.Some?
  {
    s.engine.player.value.selected[t]
  }

  /** setSelectedTrack: the engine's selection for `t` becomes `index`; turning
      text off also clears the captions on screen. */
  function SetSelectedTrack(s: Session, t: TrackType, index: int): (r: Session)
    requires s.engine.player.Some?
    ensures r.engine.player == Some(s.engine.player.value.(selected := s.engine.player.value.selected[t := index]))
    ensures t == TypeText && index < 0 && s.observers.hasCaptionListener ==> r.log == s.log + [CuesDelivered([])]
    ensures !(t == TypeText && index < 0 && s.observers.hasCaptionListener) ==> r.log == s.log
    ensures r.engine == s.engine.(player := r.engine.player)
    ensures r.build == s.build && r.lastReport == s.lastReport
    ensures r.display == s.display && r.observers == s.observers
  {
    var r := WithPlayer(s, s.engine.player.value.(selected := s.engine.player.value.selected[t := index]));
    if t == TypeText && index < 0 && s.observers.hasCaptionListener then Emit(r, [CuesDelivered([])]) else r
  }

  /** setBackgrounded: nothing when the flag is unchanged. Backgrounding saves
      the video selection, disables the video track and pushes the surface
      blocking; foregrounding selects the saved track again. */
  function SetBackgrounded(s: Session, backgrounded: bool): (r: Session)
    requires s.display.backgrounded != backgrounded ==> s.engine.player.Some?
    ensures r.display.backgrounded == backgrounded && r.display.surface == s.display.surface
    ensures s.display.backgrounded == backgrounded ==> r == s
    ensures s.display.backgrounded != backgrounded ==> r.engine.player.Some?
    ensures backgrounded && !s.display.backgrounded ==>
      && r.display.videoTrackToRestore == s.engine.player.value.selected[TypeVideo]
      && r.engine.player.value.selected == s.engine.player.value.selected[TypeVideo := TrackDisabled]
    ensures !backgrounded && s.display.backgrounded ==>
      && r.display.videoTrackToRestore == s.display.videoTrackToRestore
      && r.engine.player.value.selected == s.engine.player.value.selected[TypeVideo := s.display.videoTrackToRestore]
    ensures r.engine.player.Some? ==>
      r.engine.player.value.(selected := s.engine.player.value.selected) == s.engine.player.value
    ensures r.engine.(player := s.engine.player) == s.engine
    ensures r.build == s.build && r.lastReport == s.lastReport && r.observers == s.observers
    ensures backgrounded && !s.display.backgrounded ==>
      r.log == s.log + (if s.build.videoRenderer.Some?
                        then [SurfaceSent(s.build.videoRenderer.value, s.display.surface, true)] else [])
    ensures !backgrounded ==> r.log == s.log
  {
    if s.display.backgrounded == backgrounded then s
    else
      var flagged := s.(display := s.display.(backgrounded := backgrounded));
      if backgrounded then
        var saved := flagged.(display := flagged.display.(videoTrackToRestore := GetSelectedTrack(flagged, TypeVideo)));
        BlockingClearSurface(SetSelectedTrack(saved, TypeVideo, TrackDisabled))
      else
        SetSelectedTrack(flagged, TypeVideo, flagged.display.videoTrackToRestore)
  }

  /** onCues: forwarded only to a caption listener, and only while the text
      track is not disabled. */
  function OnCues(s: Session, cues: seq<Cue>): (r: Session)
    requires s.observers.hasCaptionListener ==> s.engine.player.Some?
    ensures s.observers.hasCaptionListener && s.engine.player.value.selected[TypeText] != TrackDisabled ==>
      r.log == s.log + [CuesDelivered(cues)]
    ensures !(s.observers.hasCaptionListener && s.engine.player.value.selected[TypeText] != TrackDisabled) ==>
      r == s
    ensures r.(log := s.log) == s
  {
    if s.observers.hasCaptionListener && GetSelectedTrack(s, TypeText) != TrackDisabled then
      Emit(s, [CuesDelivered(cues)])
    else s
  }

  /** onMetadata: forwarded to the ID3 listener, which is always set, only
      while the metadata track is not disabled. */
  function OnMetadata(s: Session, metadata: Metadata): (r: Session)
    requires s.engine.player.Some?
    ensures s.engine.player.value.selected[TypeMetadata] != TrackDisabled ==>
      r.log == s.log + [Id3Delivered(metadata)]
    ensures s.engine.player.value.selected[TypeMetadata] == TrackDisabled ==> r == s
    ensures r.(log := s.log) == s
  {
    if GetSelectedTrack(s, TypeMetadata) != TrackDisabled then Emit(s, [Id3Delivered(metadata)])
    else s
  }

  // ---------------------------------------------------------------------
  // Direct engine calls (ExoVideoView.java:545-551)

  function SetPlayWhenReady(s: Session, playWhenReady: bool): (r: Session)
    requires s.engine.player.Some?
    ensures r.engine == s.engine.(player := Some(s.engine.player.value.(playWhenReady := playWhenReady)))
    ensures r.(engine := s.engine) == s
  {
    WithPlayer(s, s.engine.player.value.(playWhenReady := playWhenReady))
  }

  function SeekTo(s: Session, positionMs: int): (r: Session)
    requires s.engine.player.Some?
    ensures r.log == s.log + [PlayerSeek(positionMs)]
    ensures r.(log := s.log) == s
  {
    Emit(s, [PlayerSeek(positionMs)])
  }

  // ---------------------------------------------------------------------
  // MediaController.MediaPlayerControl (ExoVideoView.java:226-318): every
  // call goes through the adapter when there is one; without it commands do
  // nothing and queries answer 0 or false.

  function Start(s: Session): (r: Session)
    ensures s.engine.hasControl ==> r.log == s.log + [ControlStart]
    ensures !s.engine.hasControl ==> r == s
    ensures r.(log := s.log) == s
  {
    if s.engine.hasControl then Emit(s, [ControlStart]) else s
  }

  function Pause(s: Session): (r: Session)
    ensures s.engine.hasControl ==> r.log == s.log + [ControlPause]
    ensures !s.engine.hasControl ==> r == s
    ensures r.(log := s.log) == s
  {
    if s.engine.hasControl then Emit(s, [ControlPause]) else s
  }

  function ControlSeekTo(s: Session, positionMs: int): (r: Session)
    ensures s.engine.hasControl ==> r.log == s.log + [ControlSeek(positionMs)]
    ensures !s.engine.hasControl ==> r == s
    ensures r.(log := s.log) == s
  {
    if s.engine.hasControl then Emit(s, [ControlSeek(positionMs)]) else s
  }

  function GetDuration(s: Session): (r: int)
    requires s.engine.hasControl ==> s.engine.player.Some?
    ensures !s.engine.hasControl ==> r == 0
    ensures s.engine.hasControl ==> r == s.engine.player.value.readings.duration
  {
    if s.engine.hasControl then s.engine.player.value.readings.duration else 0
  }

  function GetCurrentPosition(s: Session): (r: int)
    requires s.engine.hasControl ==> s.engine.player.Some?
    ensures !s.engine.hasControl ==> r == 0
    ensures s.engine.hasControl ==> r == s.engine.player.value.readings.position
  {
    if s.engine.hasControl then s.engine.player.value.readings.position else 0
  }

  function IsPlaying(s: Session): (r: bool)
    requires s.engine.hasControl ==> s.engine.player.Some?
    ensures r <==> s.engine.hasControl && s.engine.player.value.readings.playing
  {
    s.engine.hasControl && s.engine.player.value.readings.playing
  }

  function GetBufferPercentage(s: Session): (r: int)
    requires s.engine.hasControl ==> s.engine.player.Some?
    ensures !s.engine.hasControl ==> r == 0
    ensures s.engine.hasControl ==> r == s.engine.player.value.readings.bufferPercentage
  {
    if s.engine.hasControl then s.engine.player.value.readings.bufferPercentage else 0
  }

  function CanPause(s: Session): (r: bool)
    requires s.engine.hasControl ==> s.engine.player.Some?
    ensures r <==> s.engine.hasControl && s.engine.player.value.readings.canPause
  {
    s.engine.hasControl && s.engine.player.value.readings.canPause
  }

  function CanSeekBackward(s: Session): (r: bool)
    requires s.engine.hasControl ==> s.engine.player.Some?
    ensures r <==> s.engine.hasControl && s.engine.player.value.readings.canSeekBackward
  {
    s.engine.hasControl && s.engine.player.value.readings.canSeekBackward
  }

  function CanSeekForward(s: Session): (r: bool)
    requires s.engine.hasControl ==> s.engine.player.Some?
    ensures r <==> s.engine.hasControl && s.engine.player.value.readings.canSeekForward
  {
    s.engine.hasControl && s.engine.player.value.readings.canSeekForward
  }

  function GetAudioSessionId(s: Session): (r: int)
    requires s.engine.hasControl ==> s.engine.player.Some?
    ensures !s.engine.hasControl ==> r == 0
    ensures s.engine.hasControl ==> r == s.engine.player.value.readings.audioSessionId
  {
    if s.engine.hasControl then s.engine.player.value.readings.audioSessionId else 0
  }

  // ---------------------------------------------------------------------
  // Listener registration (ExoVideoView.java:472-490)

  function AddSessionListener(s: Session, l: ListenerId): (r: Session)
    ensures r.observers.listeners == AddListener(s.observers.listeners, l)
    ensures r.(observers := s.observers) == s
  {
    s.(observers := s.observers.(listeners := AddListener(s.observers.listeners, l)))
  }

  function RemoveSessionListener(s: Session, l: ListenerId): (r: Session)
    ensures r.observers.listeners == RemoveListener(s.observers.listeners, l)
    ensures r.(observers := s.observers) == s
  {
    s.(observers := s.observers.(listeners := RemoveListener(s.observers.listeners, l)))
  }

  /** Setting (or clearing, with null) the caption listener changes nothing
      else about the view. */
  function SetCaptionListener(s: Session, present: bool): (r: Session)
    ensures r.observers.hasCaptionListener == present
    ensures r.observers.(hasCaptionListener := s.observers.hasCaptionListener) == s.observers
    ensures r.(observers := s.observers) == s
  {
    s.(observers := s.observers.(hasCaptionListener := present))
  }

  /** Setting (or clearing, with null) the internal-error listener changes nothing
      else about the view. */
  function SetInternalErrorListener(s: Session, present: bool): (r: Session)
    ensures r.observers.hasInternalErrorListener == present
    ensures r.observers.(hasInternalErrorListener := s.observers.hasInternalErrorListener) == s.observers
    ensures r.(observers := s.observers) == s
  {
    s.(observers := s.observers.(hasInternalErrorListener := present))
  }

  /** Setting (or clearing, with null) the info listener changes nothing
      else about the view. */
  function SetInfoListener(s: Session, present: bool): (r: Session)
    ensures r.observers.hasInfoListener == present
    ensures r.observers.(hasInfoListener := s.observers.hasInfoListener) == s.observers
    ensures r.(observers := s.observers) == s
  {
    s.(observers := s.observers.(hasInfoListener := present))
  }
}

=== FILE: surface_release.dfy ===
/** The surface listener's destroy callback (ExoVideoView.java:390-401). As
    written it hands the renderer, blocking, the very surface it is about to
    release, so the renderer is left drawing into a released surface; the
    corrected callback detaches the renderer first by sending it no surface. */
module SurfaceRelease {
  import opened Wrappers
  import opened Events
  import opened Session

  /** With an engine and a video renderer, the callback as written sends the
      current surface and then drops it: the last surface the renderer was
      given is the one the view no longer holds. */
  lemma SurfaceDestroyedHandsOverReleasedSurface(s: Session, surface: SurfaceId)
    requires s.engine.player.Some? && s.build.videoRenderer.Some?
    requires s.display.surface == Some(surface)
    ensures var r := OnSurfaceTextureDestroyed(s);
      && |r.log| == |s.log| + 1
      && r.log[|s.log|] == SurfaceSent(s.build.videoRenderer.value, Some(surface), true)
      && r.display.surface.None?
  {
  }

  /** onSurfaceTextureDestroyed, corrected: the surface is dropped first, so
      the blocking push tells the renderer to stop using it. */
  function OnSurfaceTextureDestroyedCorrected(s: Session): (r: Session)
    ensures r.display == s.display.(surface := None)
    ensures s.engine.player.Some? && s.build.videoRenderer.Some? ==>
      r.log == s.log + [SurfaceSent(s.build.videoRenderer.value, None, true)]
    ensures !(s.engine.player.Some? && s.build.videoRenderer.Some?) ==> r.log == s.log
    ensures r.engine == s.engine && r.build == s.build && r.lastReport == s.lastReport
    ensures r.observers == s.observers
  {
    var dropped := s.(display := s.display.(surface := None));
    if s.engine.player.Some? then PushSurface(dropped, true) else dropped
  }

  /** The corrected callback never hands the renderer a surface: whatever it
      sends is the empty one, and it otherwise agrees with the callback as
      written. */
  lemma CorrectedSurfaceDestroyedDetachesRenderer(s: Session)
    ensures var r := OnSurfaceTextureDestroyedCorrected(s);
      forall k :: |s.log| <= k < |r.log| ==> r.log[k].SurfaceSent? && r.log[k].surface.None?
    ensures OnSurfaceTextureDestroyedCorrected(s).(log := s.log) == OnSurfaceTextureDestroyed(s).(log := s.log)
    ensures |OnSurfaceTextureDestroyedCorrected(s).log| == |OnSurfaceTextureDestroyed(s).log|
  {
  }
}

=== FILE: tracks.dfy ===
/** Track categories, track-selection values and the render-unit set of the
    playback view (ExoVideoView.java:68-81, 512-518). */
module Tracks {
  import opened Wrappers

  /** Number of renderer slots the engine is created with (RENDERER_COUNT). */
  const RendererCount: nat := 4

  /** Slot of each track category in a renderer or selection array. */
  const TypeVideo: nat := 0
  const TypeAudio: nat := 1
  const TypeText: nat := 2
  const TypeMetadata: nat := 3

  /** A track category, usable as an index into a renderer or selection array. */
  type TrackType = t: nat | t < RendererCount

  /** The engine's selection values TRACK_DISABLED and TRACK_DEFAULT
      (ExoPlayer 1.x: -1 and 0). Any other value is an explicit track index. */
  const TrackDisabled: int := -1
  const TrackDefault: int := 0

  /** The engine's per-category selected track, one entry per category. */
  type Selections = s: seq<int> | |s| == RendererCount
    witness [TrackDefault, TrackDefault, TrackDefault, TrackDefault]

  /** A decode/render unit. `Dummy` is the placeholder installed for a category
      that has no track; `CodecRenderer` is a MediaCodec-backed unit, which
      carries codec counters; `OtherRenderer` is any other unit. */
  datatype Renderer = Dummy | CodecRenderer(id: nat) | OtherRenderer(id: nat)

  /** A complete render-unit set: one unit per category, never absent. */
  type RendererSet = s: seq<Renderer> | |s| == RendererCount
    witness [Dummy, Dummy, Dummy, Dummy]

  /** Replaces every absent (null) slot by the placeholder and keeps every
      present unit where it is. */
  function FillSlots(slots: seq<Option<Renderer>>): (r: seq<Renderer>)
    ensures |r| == |slots|
    ensures forall i :: 0 <= i < |slots| && slots[i].Some? ==> r[i] == slots[i].value
    ensures forall i :: 0 <= i < |slots| && slots[i].None? ==> r[i] == Dummy
  {
    if slots == [] then []
    else [if slots[0].Some? then slots[0].value else Dummy] + FillSlots(slots[1..])
  }

  /** The builder's array, indexed by TYPE_VIDEO..TYPE_METADATA, made total. */
  function Normalise(slots: seq<Option<Renderer>>): (r: RendererSet)
    requires |slots| == RendererCount
    ensures forall t: TrackType :: slots[t].Some? ==> r[t] == slots[t].value
    ensures forall t: TrackType :: slots[t].None? ==> r[t] == Dummy
  {
    FillSlots(slots)
  }

  /** Wraps every unit as present, the shape of an array with no null slot. */
  function AllPresent(units: seq<Renderer>): (r: seq<Option<Renderer>>)
    ensures |r| == |units|
    ensures forall i :: 0 <= i < |units| ==> r[i] == Some(units[i])
  {
    seq(|units|, i requires 0 <= i < |units| => Some(units[i]))
  }

  /** Normalising an array that has no absent slot changes nothing; in
      particular, normalising a normalised array again changes nothing. */
  lemma {:induction false} NormaliseFullSetIsIdentity(units: RendererSet)
    ensures Normalise(AllPresent(units)) == units
    ensures Normalise(AllPresent(Normalise(AllPresent(units)))) == Normalise(AllPresent(units))
  {
    var r := Normalise(AllPresent(units));
    assert forall t: TrackType :: r[t] == units[t];
  }
}

=== FILE: wrappers.dfy ===
/** Option and Result, used across the model: `Option` stands for a
    Java reference that may be null, `Result` for a call that either returns a
    value or throws. */
module Wrappers {

  datatype Option<+T> = None | Some(value: T)

  datatype Result<+R, +E> = Success(value: R) | Failure(error: E)
}
